=== FILE: README.md ===
# Clightd display temperature, DPMS and camera helpers in Dafny

This project models the core of Clightd's colour-temperature engine and the
helpers around it.

- **Temperature and gain.** A temperature in Kelvin maps to three 8-bit
  channel gains. The inverse, `get_temp`, is a bisection over integer
  Kelvin followed by snapping to the 50 K grid. The daemon has two copies:
  - the XRandR module (`src/modules/gamma.c`), whose search is capped at ten
    rounds;
  - the DRM backend (`src/gamma.c`), whose search is uncapped.
- **Ramp builder.** Each CRTC gets a linear 16-bit gamma table of its own size.
- **Smooth transitions.** The XRandR module's `smooth_change` record, the
  timer tick `receive`, and the bus methods `Set` and `Get`.
- **DRM gamma.** `drm_set_temperature` writes ramps under DRM master, and
  `get_drm_gamma` reads CRTC 0 back.
- **DPMS.** The DRM read ("the first active connector with a DPMS property
  wins") and write ("every such connector"). Also the X helpers, which bracket
  their DPMS calls with the `XAUTHORITY` cookie and the display connection,
  and the bus methods that call them.
- **Camera sensor.** The `id=value` settings parser, the `xioctl` retry loop,
  capability and pixel-format checks, the `quit`-driven stage sequencing of
  `recv_frames`, the luma-sum brightness, and `free_all`.

How the model represents things:

- Hardware and library calls are parameters of the model: Xlib/XRandR, the
  DPMS extension, libdrm, V4L2 ioctls, `mmap`, `open` and `timerfd`. A
  `Device`, `DrmNode`, `XServer` or probe value says what each call answers.
- The effects the code has on the process are recorded explicitly: calls
  issued, connections held open, the cookie, the timer, and objects freed or
  leaked.
- The logarithmic colour fits are uninterpreted functions, the fields of
  `ColorModel.Fits`. Only their constant branches and the clamp to 255 are
  modelled exactly.
- Integer widths are explicit where they matter:
  - the code's unsigned step (`Transition.StepAsWritten`) and the `get_gamma` reading stored into `current_temp` (`ToU32`), reduced modulo 2^32;
  - CARD16 timeouts, reduced modulo 2^16;
  - `%u` and `%d` conversions, reduced into the 32-bit ranges.

Modules:

| file | module | models |
|---|---|---|
| common.dfy | Common | options, bus replies, C integer ranges, errno values |
| arith.dfy | Arith | integer and real division facts the proofs use |
| color_model.dfy | ColorModel | `clamp`, `get_red`/`get_green`/`get_blue`, both `get_temp` variants |
| ramp.dfy | Ramp | the ramp entry formula and its read-back |
| x_gamma.dfy | XGamma | `set_gamma` and `get_gamma` of the XRandR module |
| transition.dfy | Transition | `smooth_change`, `receive`, `method_setgamma`, `method_getgamma` of the XRandR module |
| drm_gamma.dfy | DrmGamma | `drm_set_temperature`, `get_drm_gamma` and the bus methods of `src/gamma.c` |
| drm_utils.dfy | DrmUtils | `get_active_connector`, `drm_get_prop` |
| dpms.dfy | Dpms | everything else in `src/dpms.c` |
| camera_io.dfy | CameraIo | `xioctl`, the capability and format checks, `compute_brightness` |
| camera_settings.dfy | CameraSettings | `set_camera_settings_def`, `set_camera_settings` and its parser |
| camera.dfy | Camera | `capture`, `recv_frames` and its stages, `free_all` |

`src/dpms.c` carries static copies of `get_active_connector` and
`drm_get_prop` (lines 26-53). They are identical to the ones in
`src/drm_utils.c`, and `DrmUtils` models both.

## Model

| member | source | states |
|---|---|---|
| ColorModel.Clamp | src/modules/gamma.c:209-214 | the result never exceeds the bound or the input; it is the input when that is at most the bound, and the bound otherwise |
| ColorModel.Red | src/modules/gamma.c:216-226 | red is 255 at or below 6500 K; above that it is the clamped fit, and it is never 0 |
| ColorModel.Blue | src/modules/gamma.c:245-259 | blue is 0 at or below 1900 K and 255 at or above 6500 K; strictly between, it is the clamped fit |
| ColorModel.InitialInterval | src/modules/gamma.c:264-265 | the lower bound is 6500 iff B == 255 and 1000 otherwise; the upper bound is 6500 iff R == 255 and 10000 otherwise; the interval lies within [1000, 10000] |
| ColorModel.Midpoint | src/modules/gamma.c:272 | the probe lies inside the current interval and splits it into halves that differ by at most one Kelvin |
| ColorModel.Narrow | src/modules/gamma.c:275-279 | the new interval lies inside the old one; it is the lower half exactly when the probe is bluer than the target ratio, and the upper half otherwise |
| ColorModel.CappedSearch | src/modules/gamma.c:271-281 | the probe stays inside the interval; the loop runs at least once and at most 10 times; if it stops before the tenth round, the probe reproduces (R, B) |
| ColorModel.UncappedSearch | src/gamma.c:148-157 | any temperature the uncapped loop returns lies inside the interval and reproduces (R, B) exactly |
| ColorModel.Snap | src/modules/gamma.c:284-294 | a multiple of 50 is kept; otherwise the result is the round-down multiple if it reproduces (R, B), else the round-up one if it does, else the input unchanged; a replacement always reproduces (R, B), and a match is never lost |
| ColorModel.GetTemp | src/modules/gamma.c:262-297 | the result lies in [1000, 10000]; (255, 255) gives 6500; when the search stops before the cap, the result reproduces (R, B) |
| ColorModel.GetTempUncapped | src/gamma.c:141-173 | any answer lies in [1000, 10000] and reproduces (R, B), snapping included; (255, 255) gives 6500 |
| ColorModel.UncappedSearchStalls | src/gamma.c:148-157 | once the interval is at most one Kelvin wide and its lower end does not reproduce (R, B), the uncapped loop never exits |
| ColorModel.CappedAgreesWithUncapped | src/gamma.c:148-157 | when the uncapped loop succeeds within the rounds the capped loop has left, both return the same probe |
| ColorModel.GetTempVariantsAgree | src/gamma.c:141-173 | whenever the DRM backend's `get_temp` answers within ten rounds, it answers the same as the XRandR module's |
| Ramp.RampEntryBound | src/modules/gamma.c:313-318 | every ramp entry fits in 16 bits |
| Ramp.RampEntryMonotone | src/modules/gamma.c:313-318 | ramp entries never decrease along the table |
| Ramp.BuildChannel | src/modules/gamma.c:313-318 | the table has `size` entries; entry 0 is 0, the entries never decrease, each is at most 65535, and entry j is `257*j*c/size` |
| Ramp.BuildRamp | src/gamma.c:188-205 | the three tables have the CRTC's size, are well formed, and use the gains of red, green and blue at `temp` |
| Ramp.RampEntryIsScaledLevel | src/modules/gamma.c:314-317 | the integer entry is the floor of `(65535*j/size) * (c/255)` evaluated exactly |
| Ramp.ReadScale | src/modules/gamma.c:334 | for tables of at least two entries, the read-back divisor is at least 128 |
| Ramp.LastEntryReadBack | src/modules/gamma.c:334-335 | for every table size of at least two, dividing the last entry by the read-back divisor recovers the 8-bit channel value exactly |
| Ramp.SecondEntryReadBack | src/gamma.c:250 | in a 256-entry table, entry 1 equals the 8-bit channel value |
| XGamma.SetGamma | src/modules/gamma.c:299-324 | returns `temp`; installs one ramp per CRTC, each of that CRTC's size, well formed, with the same gains |
| XGamma.GetGamma | src/modules/gamma.c:326-340 | -1 exactly when the screen has no CRTC; otherwise a temperature in [1000, 10000] |
| XGamma.GetGammaReadsSetGamma | src/modules/gamma.c:299-340 | reading back CRTC 0 after `set_gamma` recovers the red and blue of the temperature that was set, so `get_gamma` answers `get_temp` of that pair |
| XGamma.NeutralRoundTrip | src/modules/gamma.c:299-340 | setting 6500 K and reading it back gives 6500 K, whatever the fits |
| Transition.StepToward | src/modules/gamma.c:82-91 | corrected step: moves at most `step` toward the target and never past it, and lands on the target when it is within `step` |
| Transition.StepAsWrittenAgrees | src/modules/gamma.c:83-91 | when `current - step` and `current + step` stay inside 32 bits, the step as written equals the intended one |
| Transition.StepWrapsAround | src/modules/gamma.c:84-90 | two inputs where the unsigned step as written wraps: once past the target, and once away from it |
| Transition.Tick | src/modules/gamma.c:76-110 | a non-smooth tick jumps to the target, and a smooth one takes the corrected step; the new temperature is applied; on reaching the target the timer is disarmed, `XAUTHORITY` dropped and the display closed; otherwise the timer is re-armed for `wait` ms, or disarmed when `wait` is 0, and nothing else changes |
| Transition.Receive | src/modules/gamma.c:76-77 | a pub/sub message changes nothing; a NULL message or a timer expiry runs one tick |
| Transition.TickAgreesWithSource | src/modules/gamma.c:84-90 | while `current - step` and `current + step` stay within 32 bits, the corrected step a tick takes is exactly the source's unsigned step |
| Transition.TicksToTarget | src/modules/gamma.c:82-97 | with the corrected step and a positive step, the target is reached after exactly ceil(\|target - current\| / step) ticks and not before; ticks change only the current temperature |
| Transition.MethodSetGamma | src/modules/gamma.c:116-168 | an out-of-range temperature gives EINVAL with the engine untouched: no cookie, no display, no state change; a failed open gives ENXIO and drops the cookie; otherwise the record is overwritten with the request (current read from the display) and the new display joins the open ones, the cookie is set, and the engine is exactly one tick from that state, so the first step, timer and display closing follow Tick; a failed timer call is reported |
| Transition.SetLeavesPreviousDisplayOpen | src/modules/gamma.c:148-152 | a new `Set` overwrites `sc.dpy` without closing the connection it held |
| Transition.SmoothExample | src/modules/gamma.c:82-105 | from 4000 K to 4500 K in steps of 100, the `Set` call and four ticks apply 4100, 4200, 4300, 4400 and 4500; the timer is re-armed until the last tick, which disarms it and closes the display |
| Transition.MethodGetGamma | src/modules/gamma.c:170-207 | always drops `XAUTHORITY`; ENXIO when the display cannot be opened; otherwise replies with the reading |
| DrmGamma.CrtcWrites | src/gamma.c:192-207 | one gamma write per CRTC, in order, with the ramp of that CRTC's size |
| DrmGamma.DrmSetTemperature | src/gamma.c:175-224 | always returns 0; every path opens, takes master, drops master and closes, with only ramp writes in between, even when open or the resource query fails; each CRTC gets a well-formed ramp of its own size; a rejected write is logged and the loop goes on; the logged CRTCs are exactly the ones whose driver rejects the ramp |
| DrmGamma.GetDrmGamma | src/gamma.c:230-262 | -1 when resources or the gamma read-back are unavailable; otherwise any answer lies in [1000, 10000] and reproduces the clamped index-1 red and blue samples |
| DrmGamma.DrmReadsBackSetTemperature | src/gamma.c:200-205 | on a 256-entry CRTC, reading back what `drm_set_temperature` wrote gives a temperature with the same red and blue; 6500 K reads back as 6500 K |
| DrmGamma.MethodSetGamma | src/gamma.c:28-60 | rejects temperatures outside [1000, 10000] with EINVAL and no device call; otherwise makes exactly `drm_set_temperature`'s calls under master and replies with the temperature |
| DrmGamma.MethodGetGamma | src/gamma.c:62-86 | always replies, never with an error; -1 when nothing could be read; otherwise the reply is `get_drm_gamma`'s temperature, in [1000, 10000] and reproducing the clamped index-1 samples |
| DrmUtils.GetActiveConnector | src/drm_utils.c:49-60 | returns the connector exactly when it is connected, has modes and has an encoder; frees it exactly when it was found but rejected |
| DrmUtils.ConnectorReturnedOrFreed | src/drm_utils.c:50-59 | a connector that was looked up is either returned or freed, never both and never neither |
| DrmUtils.DrmGetProp | src/drm_utils.c:62-76 | a returned property always has the requested name |
| DrmUtils.DrmGetPropFirstMatch | src/drm_utils.c:62-76 | returns the first fetched property with the name, skipping NULL lookups and having freed every property fetched before it; with no match it returns NULL and has freed every property fetched; the returned one is not freed |
| DrmUtils.FreedNamesDiffer | src/drm_utils.c:70-73 | every property freed has another name |
| DrmUtils.PropReturnedOrFreed | src/drm_utils.c:70-73 | the properties freed, followed by the one returned, are exactly the properties fetched up to the match |
| Dpms.ScanDpms | src/dpms.c:75-90 | the state of the first active connector with DPMS, or -1 when there is none; the connectors left allocated are the earlier active ones without DPMS, or none when unmatched connectors are freed |
| Dpms.DrmGetDpmsAsWritten | src/dpms.c:65-94 | as written: -1 and nothing leaked when resources are unavailable; otherwise the connector loop that does not free an unmatched connector |
| Dpms.DrmGetDpmsLeaks | src/dpms.c:76-89 | an active connector without DPMS, followed by one with DPMS: the loop as written reports the second one's state and never frees the first |
| Dpms.DrmGetDpms | src/dpms.c:65-94 | corrected: leaks nothing; -1 without resources or without a qualifying connector; otherwise the first qualifying connector's state, the same state the code as written reports |
| Dpms.ScanAgrees | src/dpms.c:76-89 | freeing unmatched connectors does not change the state read |
| Dpms.DrmSetDpms | src/dpms.c:96-126 | with resources, issues exactly one write per active connector with DPMS, in order, and logs each failed write without stopping; without resources it does nothing |
| Dpms.WritesCoverQualifying | src/dpms.c:106-122 | every qualifying connector is written, and every write targets a qualifying connector with the requested level |
| Dpms.MethodGetDpms | src/dpms.c:128-147 | always replies: the first qualifying connector's state, -1 without resources, and -1 when no connector qualifies |
| Dpms.MethodSetDpms | src/dpms.c:149-184 | replies with the requested level whatever it is; the 0..3 range check is unreachable; the writes are exactly `drm_set_dpms`'s: none without resources, otherwise one per qualifying connector, in order, with the level |
| Dpms.Scoped | src/dpms.c:243-260 | the cookie is set before the display is opened and unset after the last display call; the display is closed, last, exactly when it was opened; nothing but the given display calls sits in between |
| Dpms.SetDpmsState | src/dpms.c:240-263 | cookie and display are paired; returns 0 iff the display opens and is DPMS-capable, and -2 otherwise; the display calls are exactly DPMSEnable, DPMSForceLevel(level), XFlush in the first case and none in the second |
| Dpms.GetDpmsTimeouts | src/dpms.c:265-292 | cookie and display are paired; returns -2 without a DPMS-capable display and -1 when DPMS is disabled; returns 0 with the server's timeouts exactly when it is enabled; the timeouts stay zero otherwise; the only display call is DPMSGetTimeouts, made exactly when it returns 0 |
| Dpms.SetDpmsTimeouts | src/dpms.c:294-317 | cookie and display are paired; returns 0 iff the display opens and is DPMS-capable, and -2 otherwise; the display calls are exactly DPMSEnable, DPMSSetTimeouts(t), XFlush in the first case and none in the second |
| Dpms.ToCard16 | src/dpms.c:229 | the conversion to CARD16 keeps any value below 65536 |
| Dpms.MethodGetDpmsTimeouts | src/dpms.c:186-205 | returns -1 without replying exactly when DPMS is disabled; replies with the server's timeouts when it is enabled, and with zeros when no DPMS-capable display opens |
| Dpms.MethodSetDpmsTimeouts | src/dpms.c:207-238 | a negative value is rejected with EINVAL before any X call; otherwise cookie and display are paired, the display calls are exactly DPMSEnable, DPMSSetTimeouts of the CARD16-truncated values and XFlush (none without a capable display), and the reply echoes the values received, or -2 without a capable display |
| Dpms.TimeoutTruncatedToCard16 | src/dpms.c:229-237 | a 70000 s standby timeout reaches the server as 4464 s, while the reply reports 70000 |
| CameraIo.Xioctl | src/modules/sensors/camera.c:250-261 | retries while the call is interrupted; acts on the first answer that is not EINTR, whose value it returns; sets `quit` to its errno only when it failed and `exit_on_error` is set |
| CameraIo.SettledIsFirstNonInterrupted | src/modules/sensors/camera.c:253-255 | the answer the retry loop acts on is the first non-interrupted one |
| CameraIo.CheckCaps | src/modules/sensors/camera.c:162-173 | `quit` stays 0 exactly when the device both captures video and streams, and is EINVAL otherwise |
| CameraIo.CheckCapsExamples | src/modules/sensors/camera.c:162-173 | both capability bits pass; either one alone fails with EINVAL |
| CameraIo.FirstUsable | src/modules/sensors/camera.c:190-195 | the first listed format that is GREY or YUYV, or none when no listed format is |
| CameraIo.SelectFormat | src/modules/sensors/camera.c:188-203 | chooses the first GREY or YUYV format and stops enumerating after it, with one further enumeration call; with none, it chooses 0 after enumerating past the end |
| CameraIo.Stride | src/modules/sensors/camera.c:310 | the sample step is 2 exactly for YUYV and 1 for every other format |
| CameraIo.ComputeLumaSum | src/modules/sensors/camera.c:312-314 | the loop sums bytes 0, inc, 2*inc, ... below `size`, and the sum is at most 255 per byte read |
| CameraIo.SamplesCount | src/modules/sensors/camera.c:312 | the loop reads ceil(size / inc) bytes |
| CameraIo.FrameBrightnessInUnitRange | src/modules/sensors/camera.c:301-316 | a frame with at most `width*height` luma samples has a brightness in [0, 1] |
| CameraSettings.StrtokSkipsEmptyPieces | src/modules/sensors/camera.c:144 | the tokens are exactly the non-empty comma-separated pieces, in order |
| CameraSettings.ScanInteger | src/modules/sensors/camera.c:147 | a matching conversion consumes at least one character of the token |
| CameraSettings.ScanDigits | src/modules/sensors/camera.c:147 | a digit string followed by a non-digit converts to its value |
| CameraSettings.ScanNegative | src/modules/sensors/camera.c:147 | a minus sign and digits followed by a non-digit convert to the negated value |
| CameraSettings.ToI32 | src/modules/sensors/camera.c:146-147 | the conversion to `int32_t` keeps every value in the signed 32-bit range |
| CameraSettings.ParseFormatPair | src/modules/sensors/camera.c:147 | parsing the text `id=value` of any pair gives that pair back |
| CameraSettings.ParseIgnoresTrailingText | src/modules/sensors/camera.c:147 | text after the value is ignored: "7=-3x" parses as (7, -3) |
| CameraSettings.ParseRejectsSpaceBeforeEquals | src/modules/sensors/camera.c:147 | the `=` must follow the id directly: "7 =3" is skipped |
| CameraSettings.ParseWrapsNegativeId | src/modules/sensors/camera.c:147 | `%u` accepts a negative id and wraps it: "-1=0" parses as (2^32 - 1, 0) |
| CameraSettings.ResetControls | src/modules/sensors/camera.c:96-134 | every default control is queried, and set to the reported default exactly when the query succeeds; nothing else is touched |
| CameraSettings.SetCameraSettings | src/modules/sensors/camera.c:137-152 | the defaults come first; a NULL or empty string adds nothing; otherwise one write per non-empty token that parses follows, in order |
| CameraSettings.SettingsRoundTrip | src/modules/sensors/camera.c:137-152 | a string of comma-separated `id=value` pairs applies exactly those pairs, in order, after the defaults |
| CameraSettings.ParsedFormatted | src/modules/sensors/camera.c:144-149 | the formatted tokens of a list of pairs parse back to that list |
| Camera.OpenDevice | src/modules/sensors/camera.c:88-94 | records the descriptor on success; on failure the descriptor is -1 and `quit` is the errno |
| Camera.Init | src/modules/sensors/camera.c:154-215 | `quit` stays 0 exactly when the capabilities pass, a usable format exists and S_FMT succeeds; the frame geometry is stored only then, and nothing else changes otherwise; no stream call is made |
| Camera.InitOutcome | src/modules/sensors/camera.c:155-210 | the errno of a failed QUERYCAP or S_FMT becomes `quit`; missing capabilities or formats give EINVAL; with no usable format, enumeration runs past the end of the list; otherwise S_FMT requests the first usable format |
| Camera.InitMmap | src/modules/sensors/camera.c:217-248 | `quit` stays 0 exactly when REQBUFS, QUERYBUF and mmap all succeed; each failure puts its own errno in `quit`; the buffer length is recorded only on success |
| Camera.StreamIoctl | src/modules/sensors/camera.c:263-287 | one exit-on-error ioctl: a failure sets `quit` to its errno, and nothing else changes |
| Camera.Capture1 | src/modules/sensors/camera.c:277-302 | one QBUF and one DQBUF; `quit` stays 0 iff both succeed; a dequeued frame is measured at its index, even after a failed QBUF, and a failed DQBUF measures nothing |
| Camera.Frames | src/modules/sensors/camera.c:78-81 | the loop changes only `quit` and the brightness array; it writes only indices in [i, num_captures); it does nothing once `quit` is set or the count is reached; it never starts or stops the stream |
| Camera.FramesQuit | src/modules/sensors/camera.c:78-81 | the loop ends with `quit` clear exactly when every remaining capture queues and dequeues cleanly |
| Camera.FramesMeasured | src/modules/sensors/camera.c:78-81 | when every capture is clean, index j holds the brightness of frame j |
| Camera.FramesKeep | src/modules/sensors/camera.c:78-81 | indices already written are not overwritten by later turns |
| Camera.Configure | src/modules/sensors/camera.c:74-76 | `init`, `init_mmap` and `start_stream` stop at the first stage that sets `quit`; STREAMON is issued exactly when the first two succeed |
| Camera.Setup | src/modules/sensors/camera.c:71-76 | an open failure stops after the open with its errno; otherwise the configuration runs; `quit` stays 0 exactly when every stage succeeds |
| Camera.ApplySettings | src/modules/sensors/camera.c:77 | applying the settings appends exactly the control calls of `set_camera_settings` (the defaults, then the parsed pairs) and never changes the modelled state fields |
| Camera.Stream | src/modules/sensors/camera.c:77-83 | the settings' control calls come right after the calls already made; after the capture loop, STREAMOFF is the last call; only indices below `num_captures` are written |
| Camera.RecvFrames | src/modules/sensors/camera.c:71-86 | an open failure yields only the open, with its errno in `quit`; the descriptor and buffer length are those of the stages that succeeded; only indices in [0, num_captures) are written |
| Camera.RecvFramesStreamCalls | src/modules/sensors/camera.c:71-86 | STREAMON is issued exactly when open, `init` and `init_mmap` succeed; STREAMOFF is issued, as the last call, exactly when every setup stage succeeds; then the settings' control calls directly follow STREAMON |
| Camera.RecvFramesOutcome | src/modules/sensors/camera.c:71-86 | `quit` ends 0 exactly when every stage, every capture and STREAMOFF succeed; then every index holds its own frame's brightness |
| Camera.FreeCalls | src/modules/sensors/camera.c:320-325 | unmaps exactly when the length is non-zero, closes exactly when the descriptor is not -1, and closes last |
| Camera.FreeAll | src/modules/sensors/camera.c:319-328 | releases what is held, then zeroes the whole state |
| Camera.Capture | src/modules/sensors/camera.c:62-69 | returns minus `quit`; the caller's array holds the pipeline's measurements; an open failure returns minus its errno after only the open; an opened device is closed last; a mapped buffer is unmapped, even when STREAMON then fails |
| Camera.CaptureSucceeds | src/modules/sensors/camera.c:62-86 | returns 0 exactly when every stage and capture succeeds, and then every index below `num_captures` is filled |
| Camera.QueueFailureStillMeasures | src/modules/sensors/camera.c:277-302 | a failed QBUF on the first of two captures still measures frame 0, stops before frame 1, and is reported |

## Left out

- The numeric values of the logarithmic fits (`get_red` above 6500 K, `get_green`, `get_blue` between 1900 K and 6500 K) are floating point with `log`. They are uninterpreted functions in the model. ColorModel.Green is therefore just the clamped green fit: `get_green` has no constant branch, so nothing more is stated about it.
- ColorModel.Red: its "never 0" clause rests on an assumption. The red fit is typed as positive over the whole range, which it is (about 204 at 10000 K). The double ratio test in `get_temp` becomes a cross-multiplication that needs this. An R of 0 would be a division by zero at src/modules/gamma.c:275 and src/gamma.c:152, and is excluded by `R > 0`.
- Ramp.BuildChannel: it is the exact value `257*j*c/size`. It can differ from the double computation in rare rounding cases.
- ColorModel.UncappedSearch: the search that never stops is modelled with a fuel bound. `None` means it is still searching after that many rounds. DrmGamma.GetDrmGamma and DrmGamma.MethodGetGamma inherit the bound.
- ColorModel.GetTemp: it does not claim that every reading maps back to the temperature that was set. Many temperatures share an (R, B) pair, so only the pair round-trips (XGamma.GetGammaReadsSetGamma). 6500 K is the one temperature shown to round-trip exactly.
- XGamma.GetGamma: it requires at least two entries in CRTC 0's table. With one entry the read-back divisor at src/modules/gamma.c:334 is 0.
- XGamma.GetGamma: the result is an `int`, and `method_setgamma` stores it into the unsigned `current_temp`. The model does this with `ToU32`; a -1 reading (no CRTC) becomes 2^32 - 1.
- DrmGamma.GetDrmGamma: it requires at least one CRTC, because the code reads `crtcs[0]` unconditionally. It also requires the table to have its reported size, and a non-zero index-1 red sample.
- DrmGamma.DrmSetTemperature: `drmSetMaster`, `drmDropMaster` and `close` on an invalid descriptor are recorded as calls; their failures are only logged. The `close` of the DRM node in `drm_get_dpms`, `drm_set_dpms` and `get_drm_gamma` is not recorded.
- The `timerfd` nanosecond field overflows when `smooth_wait` is 1000 ms or more (src/modules/gamma.c:103). The model re-arms with `wait` ms.
- Dpms.DrmGetDpms: the state is the connector's DPMS value. The `prop_values[p->prop_id - 1]` indexing at src/dpms.c:84 is a libdrm ABI detail and is not modelled.
- CameraSettings.SetCameraSettings: `strtok_r` writes a NUL over each comma it consumes in the caller's settings buffer (src/modules/sensors/camera.c:142-144), so after `capture` that string is cut at its first comma. The model keeps the settings string unchanged.
- CameraSettings.ScanInteger: `strtoul`/`strtol` saturation on overflow is not modelled; the digits' value is reduced into 32 bits.
- CameraIo.FrameBrightness: the brightness is an exact real. The double accumulation and division are not modelled.
- Camera.RecvFrames: it requires `Sane`, meaning:
  - the device has at least `num_captures` frames;
  - each `bytesused` fits the mapped buffer;
  - S_FMT reports at least one pixel.
  Otherwise the code reads out of bounds or divides by zero.
- Camera: the `xioctl` retries on EINTR are folded into the `Device` answers, one log entry per `xioctl`. CameraIo.Xioctl models the retry loop on its own.
- sd-bus decoding and replies, polkit authorisation, module registration, and the logind `take_control`/`release_control` calls (src/drm_utils.c:4-47) are left out. They are bus plumbing rather than logic.
- Logging (`perror`, `printf`, `m_log`, `INFO`) is not modelled, except that the rejected CRTCs and the failed DPMS writes are recorded.
- `Set` overwrites `sc.dpy` without closing the connection it held, so a transition interrupted by a new `Set` leaves its display open. The model keeps this behaviour rather than correcting it (Transition.SetLeavesPreviousDisplayOpen).
- Transition.Tick: it takes the corrected step (Transition.StepToward), not the wrapping `unsigned int` step of src/modules/gamma.c:84-90 (see Findings). The two agree while `current - step` and `current + step` stay within 32 bits (Transition.TickAgreesWithSource). Transition.TicksToTarget and Transition.MethodSetGamma inherit this: when the step exceeds the current temperature on the way down, the source wraps instead and needs about 2^32 / step ticks.

## Findings

| source | as written | input that shows it | evidently intended | confidence | as-written member | corrected member |
|---|---|---|---|---|---|---|
| src/modules/gamma.c:84-90 | the smooth step computes `current - step` and `current + step` in `unsigned int`, so both wrap around | current 3000, target 1000, step 5000 gives 2^32 - 2000; current 4000, target 6500, step 2^32 - 1000 gives 3000, away from the target | move at most `step` toward the target and stop on it | not executed | Transition.StepWrapsAround | Transition.StepToward |
| src/dpms.c:76-89 | `drm_get_dpms` moves on from an active connector without a DPMS property without freeing it, while `drm_set_dpms` frees it (lines 113-115) | connector 31, active, with only an EDID property, followed by connector 32, active, with DPMS at 3: the state is 3 and connector 31 is never freed | free the connector before moving on | not executed | Dpms.DrmGetDpmsLeaks | Dpms.DrmGetDpms |

=== FILE: arith.dfy ===
/** Facts about integer multiplication and division that the solver does not
    find on its own. */
module Arith {

  lemma MulMono(x: int, y: int, d: nat)
    ensures x <= y ==> x * d <= y * d
  {
    assert y * d - x * d == (y - x) * d;
  }

  /** Division with remainder has one answer. */
  lemma DivUnique(n: int, d: nat, q: int, r: int)
    requires d > 0 && n == q * d + r && 0 <= r < d
    ensures n / d == q
  {
    var q' := n / d;
    assert n == q' * d + n % d;
    MulMono(q + 1, q', d);
    MulMono(q' + 1, q, d);
    assert (q + 1) * d == q * d + d;
    assert (q' + 1) * d == q' * d + d;
  }

  lemma DivBelow(n: nat, d: nat, q: nat)
    requires d > 0 && n < q * d
    ensures n / d < q
  {
    assert (n / d) * d <= n;
    MulMono(q, n / d, d);
  }

  lemma DivMonotone(a: nat, b: nat, d: nat)
    requires d > 0 && a <= b
    ensures a / d <= b / d
  {
    assert (a / d) * d <= a;
    assert b < (b / d) * d + d;
    assert (b / d + 1) * d == (b / d) * d + d;
    MulMono(b / d + 1, a / d, d);
  }

  lemma DivRange(e: nat, g: nat, c: nat)
    requires g > 0 && g * c <= e < g * (c + 1)
    ensures e / g == c
  {
    assert e == c * g + (e - g * c);
    DivUnique(e, g, c, e - g * c);
  }

  lemma MulBelow(a: nat, b: nat, c: nat)
    requires a <= b
    ensures a * c <= b * c
  {
  }

  /** `(q * d + r) / d` lies in `[q, q + g)` when `r < g * d`. */
  lemma SplitQuotient(q: nat, d: nat, r: nat, g: nat)
    requires d > 0 && r < g * d
    ensures q <= (q * d + r) / d < q + g
  {
    assert r == (r / d) * d + r % d;
    assert q * d + r == (q + r / d) * d + r % d;
    DivUnique(q * d + r, d, q + r / d, r % d);
    DivBelow(r, d, g);
  }

  /** Ceiling division, the number of steps of size `s` that cover `d`. */
  function CeilDiv(d: nat, s: nat): nat
    requires s > 0
  {
    (d + s - 1) / s
  }

  lemma CeilDivZero(s: nat)
    requires s > 0
    ensures CeilDiv(0, s) == 0
  {
    DivUnique(s - 1, s, 0, s - 1);
  }

  lemma CeilDivOne(d: nat, s: nat)
    requires 0 < d <= s
    ensures CeilDiv(d, s) == 1
  {
    DivUnique(d + s - 1, s, 1, d - 1);
  }

  lemma CeilDivStep(d: nat, s: nat)
    requires 0 < s < d
    ensures CeilDiv(d, s) == CeilDiv(d - s, s) + 1
  {
    var x := d - s + s - 1;
    assert x == (x / s) * s + x % s;
    assert d + s - 1 == (x / s + 1) * s + x % s;
    DivUnique(d + s - 1, s, x / s + 1, x % s);
  }

  lemma CeilDivPositive(d: nat, s: nat)
    requires 0 < d && s > 0
    ensures CeilDiv(d, s) >= 1
  {
    DivMonotone(s, d + s - 1, s);
    DivUnique(s, s, 1, 0);
  }

  /** `n` steps of size `s` cover anything up to `n * s`. */
  lemma CeilDivAtMost(d: nat, s: nat, n: nat)
    requires s > 0 && d <= s * n
    ensures CeilDiv(d, s) <= n
  {
    DivMonotone(d + s - 1, s * n + s - 1, s);
    DivUnique(s * n + s - 1, s, n, s - 1);
  }

  /** A non-negative quotient bounded through its numerator. */
  lemma RealQuotientBound(a: real, b: real, c: real)
    requires b > 0.0 && 0.0 <= a <= c * b
    ensures 0.0 <= a / b <= c
  {
    var q := a / b;
    assert q * b == a;
  }
}

=== FILE: camera.dfy ===
/** The capture pipeline of src/modules/sensors/camera.c: `recv_frames` runs
    open, init, buffer mapping and stream start, each of which may set
    `state.quit`; stops at the first stage that does; then applies the
    settings, captures up to `num_captures` frames, and stops the stream.
    `free_all` releases what was acquired and zeroes the state.

    The module state is an explicit record; what the device answers is a
    `Device` value; the system calls made are recorded in order. */
module Camera {
  import opened Common
  import opened CameraIo
  import opened CameraSettings

  /** `struct state`. `brightness` holds the entries written into the
      caller's array, by index; `bufLength` is `state.buf.length`, set only
      once the buffer is mapped. */
  datatype CamState = CamState(
    quit: int, width: int, height: int, deviceFd: int, numCaptures: int, pixelformat: u32,
    brightness: map<int, real>, bufLength: nat, settings: Option<string>)

  /** The V4L2 requests the pipeline issues. */
  datatype Request =
    | QueryCap | SetPriority | EnumFmt(index: nat) | SetFmt(pixelformat: u32)
    | ReqBufs | QueryBuf | StreamOn | Control(c: ControlCall) | QBuf | DQBuf | StreamOff

  /** The system calls made, in order. */
  datatype Call = Open | Ioctl(req: Request) | Mmap(length: nat) | Munmap(length: nat) | Close(fd: int)

  /** `VIDIOC_QUERYCAP`'s answer. */
  datatype CapsAnswer = Caps(bits: bv32) | CapsError(errno: Errno)

  /** `VIDIOC_S_FMT`'s answer: the format the driver settled on. */
  datatype FormatAnswer = Format(width: int, height: int, pixelformat: u32) | FormatError(errno: Errno)

  /** `VIDIOC_QBUF` and `VIDIOC_DQBUF` for one capture: the second answers
      `bytesused`, and `data` is the mapped buffer's content. */
  datatype FrameAnswer = FrameAnswer(qbuf: Answer, dqbuf: Answer, data: seq<u8>)

  /** What the device answers, after `xioctl`'s retries. */
  datatype Device = Device(
    open: Answer,                        // open(): the fd, or errno
    caps: CapsAnswer,
    formats: seq<u32>,                   // what VIDIOC_ENUM_FMT lists
    setFormat: FormatAnswer,
    reqBufs: Answer,
    queryBuf: Answer,                    // the buffer length
    mmap: Answer,                        // mmap(): success, or errno
    streamOn: Answer,
    queryDefault: u32 -> Option<i32>,    // VIDIOC_QUERYCTRL's default
    frames: seq<FrameAnswer>,
    streamOff: Answer)

  /** Frames whose byte count fits the mapped buffer, and a format with at
      least one pixel: what `compute_brightness` needs to read in bounds and
      divide by a non-zero pixel count. */
  ghost predicate Sane(dev: Device, numCaptures: int) {
    && numCaptures <= |dev.frames|
    && (dev.setFormat.Format? ==> dev.setFormat.width * dev.setFormat.height > 0)
    && forall i :: 0 <= i < |dev.frames| && dev.frames[i].dqbuf.Done? ==>
         dev.frames[i].dqbuf.value <= |dev.frames[i].data|
  }

  /** The module state and the calls made so far. */
  datatype Run = Run(st: CamState, log: seq<Call>)

  function Quit(r: Run, e: int): Run {
    r.(st := r.st.(quit := e))
  }

  function Issue(r: Run, calls: seq<Call>): (n: Run)
    ensures n.st == r.st && n.log == r.log + calls
  {
    r.(log := r.log + calls)
  }

  /** `n` only appended calls to `r`'s log, and none of them starts or stops
      the stream. */
  ghost predicate AppendsQuietly(r: Run, n: Run) {
    && |r.log| <= |n.log| && n.log[..|r.log|] == r.log
    && Ioctl(StreamOn) !in n.log[|r.log|..] && Ioctl(StreamOff) !in n.log[|r.log|..]
  }

  // ---------------------------------------------------------------------
  // Stages

  /** `open_device`. */
  function OpenDevice(r: Run, dev: Device): (n: Run)
    ensures n.log == r.log + [Open]
    ensures n.st == match dev.open
                    case Done(fd) => r.st.(deviceFd := fd)
                    case Error(e) => r.st.(deviceFd := -1, quit := e)
  {
    var r := Issue(r, [Open]);
    match dev.open
    case Done(fd) => r.(st := r.st.(deviceFd := fd))
    case Error(e) => Quit(r.(st := r.st.(deviceFd := -1)), e)
  }

  /** Whether `init` succeeds on `dev`. */
  predicate InitSucceeds(dev: Device) {
    && dev.caps.Caps? && CheckCaps(dev.caps.bits) == 0
    && FirstUsable(dev.formats).Some?
    && dev.setFormat.Format?
  }

  /** `VIDIOC_ENUM_FMT` at indices 0 .. n - 1. */
  function EnumCalls(n: nat): (calls: seq<Call>)
    ensures |calls| == n && forall i :: 0 <= i < n ==> calls[i] == Ioctl(EnumFmt(i))
  {
    seq(n, i requires 0 <= i < n => Ioctl(EnumFmt(i)))
  }

  /** `init`: capabilities, priority (its failure is ignored), the format
      search, then `VIDIOC_S_FMT`, whose answer gives the frame geometry. */
  function Init(r: Run, dev: Device): (n: Run)
    requires r.st.quit == 0
    ensures n.st.quit == 0 <==> InitSucceeds(dev)
    ensures n.st.quit >= 0
    ensures InitSucceeds(dev) ==>
      n.st == r.st.(width := dev.setFormat.width, height := dev.setFormat.height,
                    pixelformat := dev.setFormat.pixelformat)
    ensures !InitSucceeds(dev) ==> n.st == r.st.(quit := n.st.quit)
    ensures AppendsQuietly(r, n)
  {
    var r1 := Issue(r, [Ioctl(QueryCap)]);
    match dev.caps
    case CapsError(e) => Quit(r1, e)
    case Caps(bits) =>
      if CheckCaps(bits) != 0 then Quit(r1, EINVAL)
      else
        var (chosen, enums) := FormatChoice(dev.formats);
        var r2 := Issue(r1, [Ioctl(SetPriority)] + EnumCalls(enums));
        assert r2.log[|r.log|..] == [Ioctl(QueryCap), Ioctl(SetPriority)] + EnumCalls(enums);
        if chosen == 0 then Quit(r2, EINVAL)
        else
          var r3 := Issue(r2, [Ioctl(SetFmt(chosen))]);
          assert r3.log[|r.log|..] == r2.log[|r.log|..] + [Ioctl(SetFmt(chosen))];
          match dev.setFormat
          case FormatError(e) => Quit(r3, e)
          case Format(w, h, pf) => r3.(st := r3.st.(width := w, height := h, pixelformat := pf))
  }

  /** Why `init` fails: the `errno` of a failed `VIDIOC_QUERYCAP` or
      `VIDIOC_S_FMT`, or EINVAL for a device that cannot capture, cannot
      stream, or lists neither GREY nor YUYV; the format search runs off the
      end of the list in that last case, and otherwise sets the first usable
      format. */
  lemma InitOutcome(r: Run, dev: Device)
    requires r.st.quit == 0
    ensures var n := Init(r, dev);
      && (dev.caps.CapsError? ==> n.st.quit == dev.caps.errno && n.log == r.log + [Ioctl(QueryCap)])
      && (dev.caps.Caps? && CheckCaps(dev.caps.bits) != 0 ==> n.st.quit == EINVAL)
      && (dev.caps.Caps? && CheckCaps(dev.caps.bits) == 0 && FirstUsable(dev.formats).None? ==>
            n.st.quit == EINVAL && Ioctl(EnumFmt(|dev.formats|)) in n.log)
      && (dev.caps.Caps? && CheckCaps(dev.caps.bits) == 0 && FirstUsable(dev.formats).Some? ==>
            Ioctl(SetFmt(dev.formats[FirstUsable(dev.formats).value])) in n.log
            && (dev.setFormat.FormatError? ==> n.st.quit == dev.setFormat.errno))
  {
    if dev.caps.Caps? && CheckCaps(dev.caps.bits) == 0 {
      var (chosen, enums) := FormatChoice(dev.formats);
      var r2 := Issue(Issue(r, [Ioctl(QueryCap)]), [Ioctl(SetPriority)] + EnumCalls(enums));
      assert r2.log[|r.log| + 2 + enums - 1] == Ioctl(EnumFmt(enums - 1));
    }
  }

  /** Whether `init_mmap` succeeds on `dev`. */
  predicate MmapSucceeds(dev: Device) {
    dev.reqBufs.Done? && dev.queryBuf.Done? && dev.mmap.Done?
  }

  /** `init_mmap`: request one buffer, query it, map it. The buffer length is
      recorded only when the mapping succeeds. */
  function InitMmap(r: Run, dev: Device): (n: Run)
    requires r.st.quit == 0
    ensures n.st.quit == 0 <==> MmapSucceeds(dev)
    ensures MmapSucceeds(dev) ==> n.st == r.st.(bufLength := dev.queryBuf.value)
                                  && n.log == r.log + [Ioctl(ReqBufs), Ioctl(QueryBuf), Mmap(dev.queryBuf.value)]
    ensures !MmapSucceeds(dev) ==> n.st == r.st.(quit := n.st.quit)
    ensures n.st.quit >= 0
    ensures dev.reqBufs.Error? ==> n.st.quit == dev.reqBufs.errno
    ensures dev.reqBufs.Done? && dev.queryBuf.Error? ==> n.st.quit == dev.queryBuf.errno
    ensures dev.reqBufs.Done? && dev.queryBuf.Done? && dev.mmap.Error? ==> n.st.quit == dev.mmap.errno
    ensures AppendsQuietly(r, n)
  {
    var r1 := Issue(r, [Ioctl(ReqBufs)]);
    match dev.reqBufs
    case Error(e) => Quit(r1, e)
    case Done(_) =>
      var r2 := Issue(r1, [Ioctl(QueryBuf)]);
      match dev.queryBuf
      case Error(e) => Quit(r2, e)
      case Done(len) =>
        var r3 := Issue(r2, [Mmap(len)]);
        match dev.mmap
        case Error(e) => Quit(r3, e)
        case Done(_) => r3.(st := r3.st.(bufLength := len))
  }

  /** `start_stream`, `stop_stream` and `send_frame`: one exit-on-error
      ioctl each. */
  function StreamIoctl(r: Run, req: Request, answer: Answer): (n: Run)
    ensures n.log == r.log + [Ioctl(req)]
    ensures n.st == (if answer.Error? then r.st.(quit := answer.errno) else r.st)
  {
    var r1 := Issue(r, [Ioctl(req)]);
    if answer.Error? then Quit(r1, answer.errno) else r1
  }

  /** The settings' control writes, as ioctls. */
  function ControlCalls(cs: seq<ControlCall>): (calls: seq<Call>)
    ensures |calls| == |cs| && forall i :: 0 <= i < |cs| ==> calls[i] == Ioctl(Control(cs[i]))
  {
    seq(|cs|, i requires 0 <= i < |cs| => Ioctl(Control(cs[i])))
  }

  /** `recv_frame`'s measurement of a dequeued frame. */
  function Measure(fa: FrameAnswer, st: CamState): real
    requires fa.dqbuf.Done? && fa.dqbuf.value <= |fa.data| && st.width * st.height > 0
  {
    FrameBrightness(fa.data, fa.dqbuf.value, st.pixelformat, st.width, st.height)
  }

  /** Every capture from `i` below `m` queues and dequeues without error. */
  ghost predicate FramesClean(dev: Device, i: nat, m: int) {
    forall j :: i <= j < m && j < |dev.frames| ==> dev.frames[j].qbuf.Done? && dev.frames[j].dqbuf.Done?
  }

  /** The capture loop from index `i`: `send_frame` then `recv_frame` while
      `quit` is clear. A failed `VIDIOC_QBUF` sets `quit` but the frame is
      still dequeued and measured; a failed `VIDIOC_DQBUF` sets `quit` and
      measures nothing. */
  function Frames(r: Run, dev: Device, i: nat): (n: Run)
    requires Sane(dev, r.st.numCaptures)
    requires r.st.width * r.st.height > 0
    ensures n.st == r.st.(quit := n.st.quit, brightness := n.st.brightness)
    ensures forall j :: j in n.st.brightness ==> j in r.st.brightness || i <= j < r.st.numCaptures
    ensures r.st.quit != 0 || i >= r.st.numCaptures ==> n == r
    ensures r.st.quit >= 0 ==> n.st.quit >= 0
    ensures AppendsQuietly(r, n)
    decreases r.st.numCaptures - i
  {
    if i >= r.st.numCaptures || r.st.quit != 0 then r
    else
      var n := Frames(Capture1(r, dev, i), dev, i + 1);
      assert n.log[|r.log|..] == [Ioctl(QBuf), Ioctl(DQBuf)] + n.log[|r.log| + 2..];
      n
  }

  /** One turn of the capture loop: `send_frame(); recv_frame(i);`. */
  function Capture1(r: Run, dev: Device, i: nat): (n: Run)
    requires Sane(dev, r.st.numCaptures) && i < r.st.numCaptures
    requires r.st.width * r.st.height > 0
    ensures n.log == r.log + [Ioctl(QBuf), Ioctl(DQBuf)]
    ensures n.st == r.st.(quit := n.st.quit, brightness := n.st.brightness)
    ensures n.st.quit == 0 <==> r.st.quit == 0 && dev.frames[i].qbuf.Done? && dev.frames[i].dqbuf.Done?
    ensures r.st.quit >= 0 ==> n.st.quit >= 0
    ensures dev.frames[i].dqbuf.Done? ==> n.st.brightness == r.st.brightness[i as int := Measure(dev.frames[i], r.st)]
    ensures dev.frames[i].dqbuf.Error? ==> n.st.brightness == r.st.brightness
  {
    var fa := dev.frames[i];
    var sent := StreamIoctl(r, QBuf, fa.qbuf);
    var got := Issue(sent, [Ioctl(DQBuf)]);
    match fa.dqbuf
    case Error(e) => Quit(got, e)
    case Done(_) => got.(st := got.st.(brightness := got.st.brightness[i as int := Measure(fa, got.st)]))
  }

  /** The loop ends with `quit` clear exactly when every remaining capture
      queues and dequeues without error. */
  lemma {:induction false} FramesQuit(r: Run, dev: Device, i: nat)
    requires Sane(dev, r.st.numCaptures)
    requires r.st.width * r.st.height > 0 && r.st.quit == 0
    ensures Frames(r, dev, i).st.quit == 0 <==> FramesClean(dev, i, r.st.numCaptures)
    decreases r.st.numCaptures - i
  {
    if i < r.st.numCaptures {
      var m := Capture1(r, dev, i);
      if m.st.quit == 0 {
        FramesQuit(m, dev, i + 1);
      }
    }
  }

  /** When every capture succeeds, index `j` holds the brightness of its
      own frame. */
  lemma {:induction false} FramesMeasured(r: Run, dev: Device, i: nat, j: int)
    requires Sane(dev, r.st.numCaptures)
    requires r.st.width * r.st.height > 0 && r.st.quit == 0
    requires FramesClean(dev, i, r.st.numCaptures) && i <= j < r.st.numCaptures
    ensures var n := Frames(r, dev, i);
            j in n.st.brightness && n.st.brightness[j] == Measure(dev.frames[j], r.st)
    decreases r.st.numCaptures - i
  {
    var m := Capture1(r, dev, i);
    assert Frames(r, dev, i) == Frames(m, dev, i + 1);
    if j == i {
      FramesKeep(m, dev, i + 1, i);
    } else {
      assert FramesClean(dev, i + 1, m.st.numCaptures);
      FramesMeasured(m, dev, i + 1, j);
    }
  }

  /** Indices below `i` are never written again. */
  lemma {:induction false} FramesKeep(r: Run, dev: Device, i: nat, j: int)
    requires Sane(dev, r.st.numCaptures)
    requires r.st.width * r.st.height > 0
    requires j < i && j in r.st.brightness
    ensures var n := Frames(r, dev, i);
            j in n.st.brightness && n.st.brightness[j] == r.st.brightness[j]
    decreases r.st.numCaptures - i
  {
    if i < r.st.numCaptures && r.st.quit == 0 {
      FramesKeep(Capture1(r, dev, i), dev, i + 1, j);
    }
  }

  /** Whether every setup stage succeeds on `dev`. */
  predicate SetupSucceeds(dev: Device) {
    dev.open.Done? && InitSucceeds(dev) && MmapSucceeds(dev) && dev.streamOn.Done?
  }

  /** The state `capture` hands to `recv_frames`: the zeroed module state
      with the capture count and settings filled in. */
  function InitialState(numCaptures: int, settings: Option<string>): CamState {
    CamState(0, 0, 0, 0, numCaptures, 0, map[], 0, settings)
  }

  /** `init`, `init_mmap` and `start_stream` on an opened device, stopping
      at the first that sets `quit`. */
  function Configure(r: Run, dev: Device): (n: Run)
    requires r.st.quit == 0
    ensures n.st.quit == 0 <==> InitSucceeds(dev) && MmapSucceeds(dev) && dev.streamOn.Done?
    ensures n.st.quit >= 0
    ensures |r.log| <= |n.log| && n.log[..|r.log|] == r.log
    ensures Ioctl(StreamOn) in n.log[|r.log|..] <==> InitSucceeds(dev) && MmapSucceeds(dev)
    ensures Ioctl(StreamOff) !in n.log[|r.log|..]
    ensures n.st.bufLength == if InitSucceeds(dev) && MmapSucceeds(dev) then dev.queryBuf.value else r.st.bufLength
    ensures InitSucceeds(dev) && MmapSucceeds(dev) ==> |n.log| > 0 && n.log[|n.log| - 1] == Ioctl(StreamOn)
    ensures n.st.deviceFd == r.st.deviceFd && n.st.numCaptures == r.st.numCaptures
    ensures n.st.brightness == r.st.brightness && n.st.settings == r.st.settings
    ensures InitSucceeds(dev) ==>
      n.st.width == dev.setFormat.width && n.st.height == dev.setFormat.height
      && n.st.pixelformat == dev.setFormat.pixelformat
  {
    var r2 := Init(r, dev);
    if r2.st.quit != 0 then r2
    else
      var r3 := InitMmap(r2, dev);
      assert r3.log[|r.log|..] == r2.log[|r.log|..] + r3.log[|r2.log|..];
      if r3.st.quit != 0 then r3
      else
        var r4 := StreamIoctl(r3, StreamOn, dev.streamOn);
        assert r4.log[|r.log|..] == r3.log[|r.log|..] + [Ioctl(StreamOn)];
        r4
  }

  /** The stages of `recv_frames` before the settings: open, then the
      configuration. */
  function Setup(dev: Device, numCaptures: int, settings: Option<string>): (n: Run)
    ensures n.st.quit == 0 <==> SetupSucceeds(dev)
    ensures n.st.quit >= 0
    ensures |n.log| > 0 && n.log[0] == Open
    ensures dev.open.Error? ==> n.log == [Open] && n.st.quit == dev.open.errno && n.st.deviceFd == -1
    ensures dev.open.Done? ==> n.st.deviceFd == dev.open.value
    ensures n.st.bufLength == if dev.open.Done? && InitSucceeds(dev) && MmapSucceeds(dev) then dev.queryBuf.value else 0
    ensures Ioctl(StreamOn) in n.log <==> dev.open.Done? && InitSucceeds(dev) && MmapSucceeds(dev)
    ensures Ioctl(StreamOff) !in n.log
    ensures dev.open.Done? && InitSucceeds(dev) && MmapSucceeds(dev) ==> n.log[|n.log| - 1] == Ioctl(StreamOn)
    ensures n.st.brightness == map[] && n.st.numCaptures == numCaptures && n.st.settings == settings
    ensures SetupSucceeds(dev) ==>
      n.st.width == dev.setFormat.width && n.st.height == dev.setFormat.height
      && n.st.pixelformat == dev.setFormat.pixelformat
  {
    var r1 := OpenDevice(Run(InitialState(numCaptures, settings), []), dev);
    if r1.st.quit != 0 then r1
    else
      var n := Configure(r1, dev);
      assert n.log == [Open] + n.log[1..];
      n
  }

  /** `set_camera_settings`: the control ioctls, which never set `quit`. */
  function ApplySettings(r: Run, dev: Device): (n: Run)
    ensures n.st == r.st
    ensures |r.log| <= |n.log| && n.log[..|r.log|] == r.log
    ensures forall c :: c in n.log[|r.log|..] ==> c.Ioctl? && c.req.Control?
    ensures n.log == r.log + ControlCalls(SetCameraSettings(r.st.settings, dev.queryDefault))
  {
    var calls := ControlCalls(SetCameraSettings(r.st.settings, dev.queryDefault));
    assert (r.log + calls)[|r.log|..] == calls;
    r.(log := r.log + calls)
  }

  /** What `recv_frames` does once the stream is on: the settings, the
      capture loop, `stop_stream`. The settings' control calls come first,
      right after the calls already made. */
  function Stream(s: Run, dev: Device): (n: Run)
    requires Sane(dev, s.st.numCaptures) && s.st.quit == 0 && s.st.width * s.st.height > 0
    ensures n.st.deviceFd == s.st.deviceFd && n.st.bufLength == s.st.bufLength && n.st.quit >= 0
    ensures |s.log| < |n.log| && n.log[..|s.log|] == s.log && n.log[|n.log| - 1] == Ioctl(StreamOff)
    ensures forall c :: c in s.log ==> c in n.log
    ensures Ioctl(StreamOff) in n.log
    ensures forall j :: j in n.st.brightness ==> j in s.st.brightness || 0 <= j < s.st.numCaptures
    ensures var calls := ControlCalls(SetCameraSettings(s.st.settings, dev.queryDefault));
            |s.log| + |calls| <= |n.log| && n.log[|s.log|..|s.log| + |calls|] == calls
  {
    var calls := ControlCalls(SetCameraSettings(s.st.settings, dev.queryDefault));
    var a := ApplySettings(s, dev);
    var m := Frames(a, dev, 0);
    var n := StreamIoctl(m, StreamOff, dev.streamOff);
    var rest := n.log[|a.log|..];
    assert n.log == s.log + calls + rest by {
      assert n.log[..|a.log|] == m.log[..|a.log|] == a.log;
    }
    SliceOfJoin(s.log, calls, rest);
    n
  }

  lemma SliceOfJoin(x: seq<Call>, y: seq<Call>, z: seq<Call>)
    ensures (x + y + z)[|x|..|x| + |y|] == y
  {
  }

  /** `recv_frames(interface)`, up to and including `stop_stream`. */
  function RecvFrames(dev: Device, numCaptures: int, settings: Option<string>): (n: Run)
    requires Sane(dev, numCaptures)
    ensures n.st.quit >= 0
    ensures dev.open.Error? ==> n.log == [Open] && n.st.quit == dev.open.errno && n.st.deviceFd == -1
    ensures dev.open.Done? ==> n.st.deviceFd == dev.open.value
    ensures n.st.bufLength == if dev.open.Done? && InitSucceeds(dev) && MmapSucceeds(dev) then dev.queryBuf.value else 0
    ensures forall j :: j in n.st.brightness ==> 0 <= j < numCaptures
  {
    var s := Setup(dev, numCaptures, settings);
    if s.st.quit != 0 then s else Stream(s, dev)
  }

  /** The stream is started exactly when open, `init` and `init_mmap`
      succeed, and stopped, as the last call, exactly when it was started
      successfully. The settings' control calls directly follow a successful
      `VIDIOC_STREAMON`. */
  lemma RecvFramesStreamCalls(dev: Device, numCaptures: int, settings: Option<string>)
    requires Sane(dev, numCaptures)
    ensures var n := RecvFrames(dev, numCaptures, settings);
      && (Ioctl(StreamOn) in n.log <==> dev.open.Done? && InitSucceeds(dev) && MmapSucceeds(dev))
      && (Ioctl(StreamOff) in n.log <==> SetupSucceeds(dev))
      && (SetupSucceeds(dev) ==> |n.log| > 0 && n.log[|n.log| - 1] == Ioctl(StreamOff))
      && (SetupSucceeds(dev) ==>
            var s := Setup(dev, numCaptures, settings);
            var calls := ControlCalls(SetCameraSettings(settings, dev.queryDefault));
            && 0 < |s.log| && |s.log| + |calls| <= |n.log|
            && n.log[|s.log| - 1] == Ioctl(StreamOn)
            && n.log[|s.log|..|s.log| + |calls|] == calls)
  {
    var s := Setup(dev, numCaptures, settings);
    if s.st.quit == 0 {
      assert RecvFrames(dev, numCaptures, settings) == Stream(s, dev);
    } else {
      assert RecvFrames(dev, numCaptures, settings) == s;
    }
  }

  /** The capture ends with `quit` clear exactly when every stage and every
      capture succeeds, and then each index holds its own frame's
      brightness. */
  lemma RecvFramesOutcome(dev: Device, numCaptures: int, settings: Option<string>)
    requires Sane(dev, numCaptures)
    ensures var n := RecvFrames(dev, numCaptures, settings);
            && (n.st.quit == 0 <==> SetupSucceeds(dev) && FramesClean(dev, 0, numCaptures) && dev.streamOff.Done?)
            && (SetupSucceeds(dev) && FramesClean(dev, 0, numCaptures) ==>
                  forall j :: 0 <= j < numCaptures ==>
                    j in n.st.brightness && n.st.brightness[j] == Measure(dev.frames[j], n.st))
  {
    var s := Setup(dev, numCaptures, settings);
    if SetupSucceeds(dev) {
      var t := ApplySettings(s, dev);
      FramesQuit(t, dev, 0);
      if FramesClean(dev, 0, numCaptures) {
        forall j | 0 <= j < numCaptures
          ensures var n := Frames(t, dev, 0);
                  j in n.st.brightness && n.st.brightness[j] == Measure(dev.frames[j], t.st)
        {
          FramesMeasured(t, dev, 0, j);
        }
      }
    }
  }

  /** The releases `free_all` makes: unmap when a buffer was mapped, close
      when the device was opened, in that order. */
  function FreeCalls(st: CamState): (calls: seq<Call>)
    ensures Munmap(st.bufLength) in calls <==> st.bufLength != 0
    ensures Close(st.deviceFd) in calls <==> st.deviceFd != -1
    ensures forall c :: c in calls ==> c == Munmap(st.bufLength) || c == Close(st.deviceFd)
    ensures st.deviceFd != -1 ==> |calls| > 0 && calls[|calls| - 1] == Close(st.deviceFd)
    ensures st.bufLength == 0 && st.deviceFd == -1 ==> calls == []
  {
    (if st.bufLength != 0 then [Munmap(st.bufLength)] else [])
    + (if st.deviceFd != -1 then [Close(st.deviceFd)] else [])
  }

  /** `free_all`: the releases, then the whole state zeroed. */
  function FreeAll(r: Run): (n: Run)
    ensures n.st == CamState(0, 0, 0, 0, 0, 0, map[], 0, None)
    ensures n.log == r.log + FreeCalls(r.st)
  {
    Run(CamState(0, 0, 0, 0, 0, 0, map[], 0, None), r.log + FreeCalls(r.st))
  }

  /** What `capture` leaves behind: its return value, the entries written to
      the caller's brightness array, and the calls made. */
  datatype Captured = Captured(ret: int, pct: map<int, real>, log: seq<Call>)

  /** `capture(dev, pct, num_captures, settings)`: the pipeline, then
      `free_all`; the return value is the negated `quit`. */
  function Capture(dev: Device, numCaptures: int, settings: Option<string>): (c: Captured)
    requires Sane(dev, numCaptures)
    ensures c.ret <= 0
    ensures c.pct == RecvFrames(dev, numCaptures, settings).st.brightness
    ensures forall j :: j in c.pct ==> 0 <= j < numCaptures
    ensures dev.open.Error? ==> c.ret == -(dev.open.errno as int) && c.log == [Open]
    ensures dev.open.Done? ==> |c.log| > 0 && c.log[|c.log| - 1] == Close(dev.open.value)
    ensures c.ret == -RecvFrames(dev, numCaptures, settings).st.quit
    ensures dev.open.Done? && InitSucceeds(dev) && MmapSucceeds(dev) && dev.queryBuf.value != 0 ==>
      Munmap(dev.queryBuf.value) in c.log
  {
    var r := RecvFrames(dev, numCaptures, settings);
    var n := FreeAll(r);
    Captured(-r.st.quit, r.st.brightness, n.log)
  }

  /** `capture` returns 0 exactly when every stage and every capture
      succeeds, and then the caller's array holds every frame's
      brightness. */
  lemma CaptureSucceeds(dev: Device, numCaptures: int, settings: Option<string>)
    requires Sane(dev, numCaptures)
    ensures var c := Capture(dev, numCaptures, settings);
            && (c.ret == 0 <==> SetupSucceeds(dev) && FramesClean(dev, 0, numCaptures) && dev.streamOff.Done?)
            && (c.ret == 0 ==> forall j :: 0 <= j < numCaptures ==> j in c.pct)
  {
    RecvFramesOutcome(dev, numCaptures, settings);
  }

  /** A failed `VIDIOC_QBUF` on the first of two captures: the frame is still
      dequeued and measured, `quit` stops the loop before the second one, and
      the capture reports the error. */
  lemma QueueFailureStillMeasures(dev: Device, e: Errno)
    requires Sane(dev, 2) && SetupSucceeds(dev) && dev.streamOff.Done?
    requires dev.frames[0].qbuf == Error(e) && dev.frames[0].dqbuf.Done?
    ensures var c := Capture(dev, 2, None);
            0 in c.pct && 1 !in c.pct && c.ret == -(e as int)
  {
  }
}

=== FILE: camera_io.dfy ===
/** The device-facing helpers of src/modules/sensors/camera.c: the `xioctl`
    retry loop, the capability and pixel-format checks of `init`, and the
    brightness of a captured frame. ioctl answers arrive as parameters. */
module CameraIo {
  import opened Common
  import opened Arith

  /** A positive `errno` value. */
  type Errno = e: int | e > 0 witness 1

  /** What one system call answered: a non-negative result, or -1 with
      `errno` set. */
  datatype Answer = Done(value: nat) | Error(errno: Errno)

  function ReturnValue(a: Answer): int {
    match a
    case Done(v) => v
    case Error(_) => -1
  }

  // ---------------------------------------------------------------------
  // xioctl

  /** What `xioctl` did: its return value, `state.quit` afterwards, and how
      many times it called `ioctl`. */
  datatype IoctlResult = IoctlResult(ret: int, quit: int, attempts: nat)

  /** `xioctl(request, arg, exitOnError)`, with `answers` the successive
      answers of `ioctl` to the request. It retries while the call is
      interrupted; `None` means every answer given was an interruption, so it
      is still retrying. */
  method Xioctl(answers: seq<Answer>, exitOnError: bool, quit: int) returns (res: Option<IoctlResult>)
    ensures res.None? <==> forall i :: 0 <= i < |answers| ==> answers[i] == Error(EINTR)
    ensures res.Some? ==>
      var k := res.value.attempts;
      && 0 < k <= |answers|
      && (forall i :: 0 <= i < k - 1 ==> answers[i] == Error(EINTR))
      && answers[k - 1] != Error(EINTR)
      && res.value.ret == ReturnValue(answers[k - 1])
      && res.value.quit == (if answers[k - 1].Error? && exitOnError then answers[k - 1].errno else quit)
  {
    var i := 0;
    while i < |answers| && answers[i] == Error(EINTR)
      invariant 0 <= i <= |answers|
      invariant forall j :: 0 <= j < i ==> answers[j] == Error(EINTR)
    {
      i := i + 1;
    }
    if i == |answers| {
      return None;
    }
    var a := answers[i];
    var q := if a.Error? && exitOnError then a.errno else quit;
    return Some(IoctlResult(ReturnValue(a), q, i + 1));
  }

  /** Reference: the answer `xioctl` acts on, the first one that is not an
      interruption. */
  function Settled(answers: seq<Answer>): Option<Answer>
  {
    if |answers| == 0 then None
    else if answers[0] == Error(EINTR) then Settled(answers[1..])
    else Some(answers[0])
  }

  /** The retry loop acts on the settled answer, and only a failed call with
      `exitOnError` changes `quit`. */
  lemma {:induction false} SettledIsFirstNonInterrupted(answers: seq<Answer>, k: nat)
    requires 0 < k <= |answers|
    requires forall i :: 0 <= i < k - 1 ==> answers[i] == Error(EINTR)
    requires answers[k - 1] != Error(EINTR)
    ensures Settled(answers) == Some(answers[k - 1])
    decreases k
  {
    if k > 1 {
      SettledIsFirstNonInterrupted(answers[1..], k - 1);
    }
  }

  // ---------------------------------------------------------------------
  // Capabilities and pixel formats

  const CapVideoCapture: bv32 := 0x0000_0001
  const CapStreaming: bv32 := 0x0400_0000

  /** The check `init` makes of `VIDIOC_QUERYCAP`'s answer: `quit` becomes
      EINVAL unless the device both captures video and streams. */
  function CheckCaps(caps: bv32): (quit: int)
    ensures quit == 0 || quit == EINVAL
    ensures quit == 0 <==> caps & CapVideoCapture != 0 && caps & CapStreaming != 0
  {
    if caps & CapVideoCapture == 0 then EINVAL
    else if caps & CapStreaming == 0 then EINVAL
    else 0
  }

  lemma CheckCapsExamples()
    ensures CheckCaps(0x0400_0001) == 0
    ensures CheckCaps(0x0000_0001) == EINVAL
    ensures CheckCaps(0x0400_0000) == EINVAL
  {
  }

  /** V4L2 fourcc codes: 'GREY' and 'YUYV', least significant byte first. */
  const PixFmtGrey: u32 := 0x5945_5247
  const PixFmtYuyv: u32 := 0x5659_5559

  predicate Usable(f: u32) { f == PixFmtGrey || f == PixFmtYuyv }

  /** Reference: the position of the first usable format the device lists. */
  function FirstUsable(formats: seq<u32>): (k: Option<nat>)
    ensures k.None? <==> forall i :: 0 <= i < |formats| ==> !Usable(formats[i])
    ensures k.Some? ==> k.value < |formats| && Usable(formats[k.value])
                        && forall i :: 0 <= i < k.value ==> !Usable(formats[i])
  {
    if |formats| == 0 then None
    else if Usable(formats[0]) then Some(0)
    else
      match FirstUsable(formats[1..])
      case None => None
      case Some(k) => Some(k + 1)
  }

  /** The format enumeration loop of `init`. `formats` are the formats
      `VIDIOC_ENUM_FMT` lists at indices 0, 1, ...; it fails past the last
      one. Returns the chosen format (0 for none) and the number of
      `VIDIOC_ENUM_FMT` calls: the loop condition calls it before looking at
      the chosen format, so one call follows the choice. */
  method SelectFormat(formats: seq<u32>) returns (chosen: u32, enumCalls: nat)
    ensures FirstUsable(formats).None? ==> chosen == 0 && enumCalls == |formats| + 1
    ensures FirstUsable(formats).Some? ==>
      chosen == formats[FirstUsable(formats).value] && enumCalls == FirstUsable(formats).value + 2
  {
    chosen := 0;
    var index := 0;
    enumCalls := 1;
    while index < |formats| && chosen == 0
      invariant 0 <= index <= |formats|
      invariant enumCalls == index + 1
      invariant chosen == 0 ==> forall j :: 0 <= j < index ==> !Usable(formats[j])
      invariant chosen != 0 ==>
        0 < index && chosen == formats[index - 1] && Usable(chosen)
        && forall j :: 0 <= j < index - 1 ==> !Usable(formats[j])
    {
      if formats[index] == PixFmtGrey {
        chosen := PixFmtGrey;
      } else if formats[index] == PixFmtYuyv {
        chosen := PixFmtYuyv;
      }
      index := index + 1;
      enumCalls := enumCalls + 1;
    }
    if chosen != 0 {
      assert FirstUsable(formats) == Some(index - 1) by { FirstUsableAt(formats, index - 1); }
    }
  }

  lemma {:induction false} FirstUsableAt(formats: seq<u32>, k: nat)
    requires k < |formats| && Usable(formats[k]) && forall i :: 0 <= i < k ==> !Usable(formats[i])
    ensures FirstUsable(formats) == Some(k)
    decreases k
  {
    if k > 0 {
      FirstUsableAt(formats[1..], k - 1);
    }
  }

  /** The chosen format and the enumeration calls, as a function. */
  function FormatChoice(formats: seq<u32>): (r: (u32, nat))
  {
    match FirstUsable(formats)
    case None => (0, |formats| + 1)
    case Some(k) => (formats[k], k + 2)
  }

  // ---------------------------------------------------------------------
  // Brightness

  /** Bytes per luma sample: YUYV interleaves chroma, GREY does not. */
  function Stride(pixelformat: u32): (inc: nat)
    ensures inc == 1 || inc == 2
    ensures inc == 2 <==> pixelformat == PixFmtYuyv
  {
    if pixelformat == PixFmtYuyv then 2 else 1
  }

  /** The sum `compute_brightness` accumulates: bytes `i`, `i + inc`, ...
      below `size`. */
  function LumaSum(frame: seq<u8>, i: nat, size: nat, inc: nat): nat
    requires inc > 0 && size <= |frame|
    decreases size - i
  {
    if i >= size then 0 else frame[i] + LumaSum(frame, i + inc, size, inc)
  }

  /** How many bytes that loop reads from `i` on. */
  function Samples(i: nat, size: nat, inc: nat): nat
    requires inc > 0
    decreases size - i
  {
    if i >= size then 0 else 1 + Samples(i + inc, size, inc)
  }

  /** The accumulation loop of `compute_brightness`. */
  method ComputeLumaSum(frame: seq<u8>, size: nat, inc: nat) returns (sum: nat)
    requires inc > 0 && size <= |frame|
    ensures sum == LumaSum(frame, 0, size, inc)
    ensures sum <= 255 * CeilDiv(size, inc)
  {
    sum := 0;
    var i := 0;
    while i < size
      invariant sum + LumaSum(frame, i, size, inc) == LumaSum(frame, 0, size, inc)
      decreases size - i
    {
      sum := sum + frame[i];
      i := i + inc;
    }
    LumaSumBound(frame, 0, size, inc);
    SamplesCount(0, size, inc);
  }

  lemma {:induction false} LumaSumBound(frame: seq<u8>, i: nat, size: nat, inc: nat)
    requires inc > 0 && size <= |frame|
    ensures LumaSum(frame, i, size, inc) <= 255 * Samples(i, size, inc)
    decreases size - i
  {
    if i < size {
      LumaSumBound(frame, i + inc, size, inc);
    }
  }

  /** The loop reads `ceil((size - i) / inc)` bytes. */
  lemma {:induction false} SamplesCount(i: nat, size: nat, inc: nat)
    requires inc > 0
    ensures Samples(i, size, inc) == if i >= size then 0 else CeilDiv(size - i, inc)
    decreases size - i
  {
    if i < size {
      SamplesCount(i + inc, size, inc);
      var d := size - i;
      if d <= inc {
        CeilDivOne(d, inc);
      } else {
        CeilDivStep(d, inc);
      }
    }
  }

  /** `compute_brightness(size) / CAMERA_ILL_MAX`, evaluated exactly: the mean
      luma over the `width * height` pixels, scaled to [0, 1]. */
  function FrameBrightness(frame: seq<u8>, size: nat, pixelformat: u32, width: int, height: int): real
    requires size <= |frame| && width * height > 0
  {
    (LumaSum(frame, 0, size, Stride(pixelformat)) as real / (width * height) as real) / 255.0
  }

  /** A frame of at most `width * height` samples gives a brightness in
      [0, 1]: a GREY frame of `width * height` bytes, or a YUYV frame of twice
      that. */
  lemma FrameBrightnessInUnitRange(frame: seq<u8>, size: nat, pixelformat: u32, width: int, height: int)
    requires size <= |frame| && width * height > 0
    requires size <= Stride(pixelformat) * (width * height)
    ensures 0.0 <= FrameBrightness(frame, size, pixelformat, width, height) <= 1.0
  {
    var inc := Stride(pixelformat);
    var n := width * height;
    LumaSumBound(frame, 0, size, inc);
    SamplesCount(0, size, inc);
    CeilDivAtMost(size, inc, n);
    var sum := LumaSum(frame, 0, size, inc);
    assert sum <= 255 * n;
    RealQuotientBound(sum as real, n as real, 255.0);
  }
}

=== FILE: camera_settings.dfy ===
/** The camera settings string of src/modules/sensors/camera.c: a list of
    `id=value` pairs separated by commas, tokenised as `strtok_r` does and
    parsed as `sscanf(token, "%u=%d", ...)` does, applied after the default
    controls. The V4L2 control ioctls are represented by the calls issued and
    by what `VIDIOC_QUERYCTRL` answers. */
module CameraSettings {
  import opened Common

  // ---------------------------------------------------------------------
  // Tokenising

  /** Index of the first comma of `s`, or `|s|` when there is none. */
  function TokenEnd(s: string): (e: nat)
    ensures e <= |s|
    ensures forall i :: 0 <= i < e ==> s[i] != ','
    ensures e < |s| ==> s[e] == ','
  {
    if |s| == 0 || s[0] == ',' then 0 else 1 + TokenEnd(s[1..])
  }

  /** The successive results of `strtok_r(rest, ",", &rest)`: leading commas
      are skipped, a token runs to the next comma or the end, and the scan
      resumes at that comma. */
  function Strtok(s: string): (ts: seq<string>)
    decreases |s|
  {
    if |s| == 0 then []
    else if s[0] == ',' then Strtok(s[1..])
    else [s[..TokenEnd(s)]] + Strtok(s[TokenEnd(s)..])
  }

  /** Reference: the pieces between commas, empty ones included, so that
      joining them with commas gives the string back. */
  function Pieces(s: string): (ps: seq<string>)
    ensures |ps| > 0
    decreases |s|
  {
    var e := TokenEnd(s);
    if e == |s| then [s] else [s[..e]] + Pieces(s[e + 1..])
  }

  function NonEmpty(ps: seq<string>): seq<string> {
    if |ps| == 0 then [] else (if ps[0] == "" then [] else [ps[0]]) + NonEmpty(ps[1..])
  }

  function Join(ps: seq<string>): string
    requires |ps| > 0
  {
    if |ps| == 1 then ps[0] else ps[0] + "," + Join(ps[1..])
  }

  predicate CommaFree(s: string) {
    forall i :: 0 <= i < |s| ==> s[i] != ','
  }

  /** The tokens are exactly the non-empty pieces between commas. */
  lemma {:induction false} StrtokSkipsEmptyPieces(s: string)
    ensures Strtok(s) == NonEmpty(Pieces(s))
    decreases |s|
  {
    if |s| == 0 {
      assert Pieces(s) == [""];
    } else if s[0] == ',' {
      StrtokSkipsEmptyPieces(s[1..]);
      assert TokenEnd(s) == 0 && s[..0] == "";
      assert Pieces(s) == [""] + Pieces(s[1..]);
      assert NonEmpty(Pieces(s)) == NonEmpty(Pieces(s)[1..]);
    } else {
      var e := TokenEnd(s);
      assert e > 0;
      assert s[..e] != "" by { assert |s[..e]| == e; }
      if e == |s| {
        assert s[e..] == [];
        assert Pieces(s) == [s];
        assert NonEmpty([s]) == [s] + NonEmpty([]);
        assert s[..e] == s;
      } else {
        var rest := s[e..];
        assert rest[0] == ',' && rest[1..] == s[e + 1..];
        StrtokSkipsEmptyPieces(s[e + 1..]);
        assert Strtok(rest) == Strtok(s[e + 1..]);
        var ps := Pieces(s);
        assert ps == [s[..e]] + Pieces(s[e + 1..]);
        assert ps[1..] == Pieces(s[e + 1..]);
      }
    }
  }

  /** Joining the pieces with commas gives the string back. */
  lemma {:induction false} JoinPieces(s: string)
    ensures Join(Pieces(s)) == s
    decreases |s|
  {
    var e := TokenEnd(s);
    if e < |s| {
      JoinPieces(s[e + 1..]);
      assert Pieces(s)[1..] == Pieces(s[e + 1..]);
      assert s == s[..e] + "," + s[e + 1..];
    }
  }

  /** Splitting a comma-joined list of comma-free strings gives the list back. */
  lemma {:induction false} PiecesOfJoin(ps: seq<string>)
    requires |ps| > 0 && forall i :: 0 <= i < |ps| ==> CommaFree(ps[i])
    ensures Pieces(Join(ps)) == ps
    decreases |ps|
  {
    var p := ps[0];
    if |ps| == 1 {
      TokenEndOfCommaFree(p, "");
      assert p + "" == p;
    } else {
      var tail := Join(ps[1..]);
      var s := p + ("," + tail);
      assert Join(ps) == s;
      TokenEndOfCommaFree(p, "," + tail);
      assert s[..|p|] == p;
      assert s[|p| + 1..] == tail;
      PiecesOfJoin(ps[1..]);
      assert Pieces(s) == [p] + Pieces(tail);
    }
  }

  lemma {:induction false} TokenEndOfCommaFree(p: string, rest: string)
    requires CommaFree(p) && (|rest| == 0 || rest[0] == ',')
    ensures TokenEnd(p + rest) == |p|
    decreases |p|
  {
    if |p| > 0 {
      assert (p + rest)[1..] == p[1..] + rest;
      TokenEndOfCommaFree(p[1..], rest);
    } else {
      assert p + rest == rest;
    }
  }

  lemma {:induction false} NonEmptyKeeps(ps: seq<string>)
    requires forall i :: 0 <= i < |ps| ==> ps[i] != ""
    ensures NonEmpty(ps) == ps
    decreases |ps|
  {
    if |ps| > 0 {
      NonEmptyKeeps(ps[1..]);
    }
  }

  // ---------------------------------------------------------------------
  // sscanf "%u=%d"

  predicate IsDigit(c: char) { '0' as int <= c as int <= '9' as int }

  function DigitValue(c: char): (d: nat)
    requires IsDigit(c)
    ensures d < 10
  {
    c as int - '0' as int
  }

  /** The characters `isspace` accepts in the C locale. */
  predicate IsSpace(c: char) {
    c == ' ' || c == '\t' || c == '\n' || c == '\r' || c == 11 as char || c == 12 as char
  }

  function SpaceRun(s: string): (n: nat)
    ensures n <= |s|
    ensures forall i :: 0 <= i < n ==> IsSpace(s[i])
    ensures n < |s| ==> !IsSpace(s[n])
  {
    if |s| > 0 && IsSpace(s[0]) then 1 + SpaceRun(s[1..]) else 0
  }

  function DigitRun(s: string): (n: nat)
    ensures n <= |s|
    ensures forall i :: 0 <= i < n ==> IsDigit(s[i])
    ensures n < |s| ==> !IsDigit(s[n])
  {
    if |s| > 0 && IsDigit(s[0]) then 1 + DigitRun(s[1..]) else 0
  }

  /** The value of a string of decimal digits. */
  function DigitsValue(s: string): nat
    requires forall i :: 0 <= i < |s| ==> IsDigit(s[i])
  {
    if |s| == 0 then 0 else DigitsValue(s[..|s| - 1]) * 10 + DigitValue(s[|s| - 1])
  }

  /** A `%u` or `%d` conversion: optional white space, an optional sign, at
      least one digit. The signed value and the number of characters consumed,
      or `None` on a matching failure. */
  function ScanInteger(s: string): (r: Option<(int, nat)>)
    ensures r.Some? ==> 0 < r.value.1 <= |s|
  {
    var w := SpaceRun(s);
    match ScanSigned(s[w..])
    case None => None
    case Some((v, n)) => Some((v, w + n))
  }

  function ScanSigned(t: string): (r: Option<(int, nat)>)
    ensures r.Some? ==> 0 < r.value.1 <= |t|
  {
    if |t| > 0 && (t[0] == '+' || t[0] == '-') then
      match ScanMagnitude(t[1..])
      case None => None
      case Some((m, d)) => Some((if t[0] == '-' then -m else m, d + 1))
    else ScanMagnitude(t)
  }

  function ScanMagnitude(t: string): (r: Option<(int, nat)>)
    ensures r.Some? ==> 0 < r.value.1 <= |t| && r.value.0 >= 0
  {
    var d := DigitRun(t);
    if d == 0 then None else Some((DigitsValue(t[..d]) as int, d))
  }

  /** C conversion of a `long` to `int32_t`: reduction modulo 2^32 into the
      signed range. */
  function ToI32(x: int): (r: i32)
    ensures -0x8000_0000 <= x < 0x8000_0000 ==> r == x
  {
    var m := x % U32Modulus;
    if m < 0x8000_0000 then m else m - U32Modulus
  }

  /** `sscanf(token, "%u=%d", &id, &val) == 2`: the pair, or `None` when either
      conversion or the literal `=` fails to match. Whatever follows the
      second number is ignored. */
  function ParsePair(token: string): (r: Option<(u32, i32)>)
  {
    match ScanInteger(token)
    case None => None
    case Some((id, n)) =>
      if n < |token| && token[n] == '=' then
        match ScanInteger(token[n + 1..])
        case None => None
        case Some((v, _)) => Some((ToU32(id), ToI32(v)))
      else None
  }

  // ---------------------------------------------------------------------
  // Formatting, the inverse of parsing

  function DigitChar(d: nat): (c: char)
    requires d < 10
    ensures IsDigit(c) && DigitValue(c) == d
  {
    ('0' as int + d) as char
  }

  /** Decimal form of `n`, without leading zeros. */
  function NatToString(n: nat): (s: string)
    ensures |s| > 0 && forall i :: 0 <= i < |s| ==> IsDigit(s[i])
    ensures DigitsValue(s) == n
  {
    if n < 10 then [DigitChar(n)]
    else
      var s := NatToString(n / 10) + [DigitChar(n % 10)];
      assert s[..|s| - 1] == NatToString(n / 10);
      s
  }

  /** Decimal form of `v`, with a leading `-` when negative. */
  function IntToString(v: int): (s: string)
    ensures |s| > 0
  {
    if v < 0 then ['-'] + NatToString(-v) else NatToString(v)
  }

  /** The token for one pair. */
  function FormatPair(p: (u32, i32)): (s: string)
    ensures s != ""
  {
    NatToString(p.0) + ['='] + IntToString(p.1)
  }

  lemma {:induction false} FormatPairCommaFree(p: (u32, i32))
    ensures CommaFree(FormatPair(p))
  {
    var a := NatToString(p.0);
    var b := IntToString(p.1);
    var s := FormatPair(p);
    forall i | 0 <= i < |s| ensures s[i] != ',' {
      if i < |a| {
        assert s[i] == a[i];
      } else if i > |a| {
        assert s[i] == b[i - |a| - 1];
        if p.1 < 0 {
          if i > |a| + 1 { assert b[i - |a| - 1] == NatToString(-(p.1 as int))[i - |a| - 2]; }
        } else {
          assert b == NatToString(p.1);
        }
      }
    }
  }

  lemma {:induction false} MagnitudeOf(digits: string, rest: string)
    requires |digits| > 0 && forall i :: 0 <= i < |digits| ==> IsDigit(digits[i])
    requires |rest| == 0 || !IsDigit(rest[0])
    ensures ScanMagnitude(digits + rest) == Some((DigitsValue(digits) as int, |digits|))
  {
    DigitRunOf(digits, rest);
    assert (digits + rest)[..|digits|] == digits;
  }

  /** No white space to skip: the conversion starts at the first character. */
  lemma NoLeadingSpace(s: string)
    requires |s| > 0 && !IsSpace(s[0])
    ensures ScanInteger(s) == ScanSigned(s)
  {
    assert SpaceRun(s) == 0;
    assert s[0..] == s;
  }

  /** A digit string followed by a non-digit scans as its value. */
  lemma {:induction false} ScanDigits(digits: string, rest: string)
    requires |digits| > 0 && forall i :: 0 <= i < |digits| ==> IsDigit(digits[i])
    requires |rest| == 0 || !IsDigit(rest[0])
    ensures ScanInteger(digits + rest) == Some((DigitsValue(digits) as int, |digits|))
  {
    var s := digits + rest;
    assert s[0] == digits[0];
    NoLeadingSpace(s);
    MagnitudeOf(digits, rest);
  }

  /** A minus sign and a digit string followed by a non-digit scans as the
      negated value. */
  lemma {:induction false} ScanNegative(digits: string, rest: string)
    requires |digits| > 0 && forall i :: 0 <= i < |digits| ==> IsDigit(digits[i])
    requires |rest| == 0 || !IsDigit(rest[0])
    ensures ScanInteger(['-'] + (digits + rest)) == Some((-(DigitsValue(digits) as int), |digits| + 1))
  {
    var s := ['-'] + (digits + rest);
    NoLeadingSpace(s);
    assert s[1..] == digits + rest;
    MagnitudeOf(digits, rest);
    MinusSign(s, DigitsValue(digits), |digits|);
  }

  lemma MinusSign(t: string, m: int, d: nat)
    requires |t| > 0 && t[0] == '-' && ScanMagnitude(t[1..]) == Some((m, d))
    ensures ScanSigned(t) == Some((-m, d + 1))
  {
  }

  lemma {:induction false} DigitRunOf(digits: string, rest: string)
    requires forall i :: 0 <= i < |digits| ==> IsDigit(digits[i])
    requires |rest| == 0 || !IsDigit(rest[0])
    ensures DigitRun(digits + rest) == |digits|
    decreases |digits|
  {
    if |digits| > 0 {
      assert (digits + rest)[1..] == digits[1..] + rest;
      DigitRunOf(digits[1..], rest);
    } else {
      assert digits + rest == rest;
    }
  }

  /** A formatted value followed by nothing scans as the value. */
  lemma {:induction false} ScanFormattedValue(v: i32)
    ensures ScanInteger(IntToString(v)) == Some((v as int, |IntToString(v)|))
  {
    if v < 0 {
      var d := NatToString(-(v as int));
      ScanNegative(d, "");
      assert ['-'] + (d + "") == IntToString(v);
    } else {
      var d := NatToString(v);
      ScanDigits(d, "");
      assert d + "" == IntToString(v);
    }
  }

  /** Parsing a formatted pair gives the pair back. */
  lemma {:induction false} ParseFormatPair(p: (u32, i32))
    ensures ParsePair(FormatPair(p)) == Some(p)
  {
    var a := NatToString(p.0);
    var b := IntToString(p.1);
    var s := FormatPair(p);
    assert s == a + (['='] + b);
    ScanDigits(a, ['='] + b);
    assert ScanInteger(s) == Some((p.0 as int, |a|));
    assert s[|a|] == '=';
    assert s[|a| + 1..] == b;
    ScanFormattedValue(p.1);
  }

  // ---------------------------------------------------------------------
  // Applying the settings

  /** The control ioctls `set_camera_settings` issues. */
  datatype ControlCall = QueryCtrl(id: u32) | SetCtrl(id: u32, value: i32)

  const CidBase: u32 := 0x0098_0900
  const CidCameraClassBase: u32 := 0x009a_0900

  const CidBrightness: u32 := CidBase + 0
  const CidAutoWhiteBalance: u32 := CidBase + 12
  const CidAutogain: u32 := CidBase + 18
  const CidGain: u32 := CidBase + 19
  const CidWhiteBalanceTemperature: u32 := CidBase + 26
  const CidBacklightCompensation: u32 := CidBase + 28
  const CidAutobrightness: u32 := CidBase + 32
  const CidExposureAuto: u32 := CidCameraClassBase + 1
  const CidExposureAbsolute: u32 := CidCameraClassBase + 2
  const CidIrisAbsolute: u32 := CidCameraClassBase + 17
  const CidIsoSensitivity: u32 := CidCameraClassBase + 23
  const CidIsoSensitivityAuto: u32 := CidCameraClassBase + 24
  const CidSceneMode: u32 := CidCameraClassBase + 26

  /** The controls `set_camera_settings_def` resets, in its order: the
      automatic modes first, then the manual values. */
  const DefaultControls: seq<u32> := [
    CidSceneMode, CidAutoWhiteBalance, CidExposureAuto, CidAutogain, CidIsoSensitivityAuto,
    CidBacklightCompensation, CidAutobrightness,
    CidWhiteBalanceTemperature, CidExposureAbsolute, CidIrisAbsolute, CidGain, CidIsoSensitivity,
    CidBrightness]

  /** `set_v4l2_control_def` for each of `ids`: query the control, and set it
      to its default only when the query succeeds. `queryDefault(id)` is the
      default `VIDIOC_QUERYCTRL` reports, `None` when the query fails. */
  function ResetControls(ids: seq<u32>, queryDefault: u32 -> Option<i32>): (calls: seq<ControlCall>)
    ensures |calls| >= |ids|
    ensures forall i :: 0 <= i < |ids| ==> QueryCtrl(ids[i]) in calls
    ensures forall i :: 0 <= i < |ids| && queryDefault(ids[i]).Some? ==>
              SetCtrl(ids[i], queryDefault(ids[i]).value) in calls
    ensures forall c :: c in calls ==> c.id in ids
    ensures forall c :: c in calls && c.SetCtrl? ==> queryDefault(c.id) == Some(c.value)
    decreases |ids|
  {
    if |ids| == 0 then []
    else
      var id := ids[0];
      var here := [QueryCtrl(id)] + (match queryDefault(id) case None => [] case Some(v) => [SetCtrl(id, v)]);
      var rest := ResetControls(ids[1..], queryDefault);
      assert forall i :: 1 <= i < |ids| ==> ids[i] == ids[1..][i - 1];
      here + rest
  }

  /** The pairs applied from a settings string: the tokens that parse, in
      order. */
  function ParsedPairs(tokens: seq<string>): (ps: seq<(u32, i32)>)
    ensures |ps| <= |tokens|
  {
    if |tokens| == 0 then []
    else (match ParsePair(tokens[0]) case None => [] case Some(p) => [p]) + ParsedPairs(tokens[1..])
  }

  function SetCalls(ps: seq<(u32, i32)>): (calls: seq<ControlCall>)
    ensures |calls| == |ps|
    ensures forall i :: 0 <= i < |ps| ==> calls[i] == SetCtrl(ps[i].0, ps[i].1)
  {
    seq(|ps|, i requires 0 <= i < |ps| => SetCtrl(ps[i].0, ps[i].1))
  }

  /** `set_camera_settings()`: the defaults first, then, for a non-NULL
      non-empty string, one `VIDIOC_S_CTRL` per token that parses. */
  function SetCameraSettings(settings: Option<string>, queryDefault: u32 -> Option<i32>): (calls: seq<ControlCall>)
    ensures settings.None? || settings == Some("") ==> calls == ResetControls(DefaultControls, queryDefault)
    ensures settings.Some? ==>
      calls == ResetControls(DefaultControls, queryDefault) + SetCalls(ParsedPairs(NonEmpty(Pieces(settings.value))))
  {
    var defaults := ResetControls(DefaultControls, queryDefault);
    match settings
    case None => defaults
    case Some(s) =>
      if |s| == 0 then
        assert Pieces(s) == [""];
        defaults
      else
        StrtokSkipsEmptyPieces(s);
        defaults + SetCalls(ParsedPairs(Strtok(s)))
  }

  /** The settings text for a list of pairs, one `id=value` token each. */
  function Formatted(pairs: seq<(u32, i32)>): (tokens: seq<string>)
    ensures |tokens| == |pairs|
    ensures forall i :: 0 <= i < |pairs| ==> tokens[i] == FormatPair(pairs[i])
  {
    if |pairs| == 0 then [] else [FormatPair(pairs[0])] + Formatted(pairs[1..])
  }

  /** A settings string written as comma-separated `id=value` pairs applies
      exactly those pairs, in order, after the defaults. */
  lemma {:induction false} SettingsRoundTrip(pairs: seq<(u32, i32)>, queryDefault: u32 -> Option<i32>)
    requires |pairs| > 0
    ensures SetCameraSettings(Some(Join(Formatted(pairs))), queryDefault)
            == ResetControls(DefaultControls, queryDefault) + SetCalls(pairs)
  {
    var tokens := Formatted(pairs);
    forall i | 0 <= i < |tokens| ensures CommaFree(tokens[i]) { FormatPairCommaFree(pairs[i]); }
    PiecesOfJoin(tokens);
    NonEmptyKeeps(tokens);
    ParsedFormatted(pairs);
  }

  lemma {:induction false} ParsedFormatted(pairs: seq<(u32, i32)>)
    ensures ParsedPairs(Formatted(pairs)) == pairs
    decreases |pairs|
  {
    if |pairs| > 0 {
      ParseFormatPair(pairs[0]);
      ParsedFormatted(pairs[1..]);
      assert Formatted(pairs)[1..] == Formatted(pairs[1..]);
    }
  }

  /** Whatever follows the value is ignored. */
  lemma ParseIgnoresTrailingText()
    ensures ParsePair("7=-3x") == Some((7, -3))
  {
    var t := "7=-3x";
    ScanIdSeven();
    assert t[2..] == "-3x";
    ScanMinusThree();
    ParseSteps(t, 7, 1, -3, 2);
  }

  lemma ScanIdSeven()
    ensures ScanInteger("7=-3x") == Some((7, 1))
  {
    assert "7=-3x" == "7" + "=-3x";
    ScanDigits("7", "=-3x");
    assert DigitsValue("7") == 7 by { assert "7"[..0] == ""; }
  }

  lemma ScanMinusThree()
    ensures ScanInteger("-3x") == Some((-3, 2))
  {
    assert "-3x" == ['-'] + ("3" + "x");
    ScanNegative("3", "x");
    assert DigitsValue("3") == 3 by { assert "3"[..0] == ""; }
  }

  /** `ParsePair` from the two scans it makes. */
  lemma ParseSteps(t: string, id: int, n: nat, v: int, m: nat)
    requires ScanInteger(t) == Some((id, n)) && n < |t| && t[n] == '='
    requires ScanInteger(t[n + 1..]) == Some((v, m))
    ensures ParsePair(t) == Some((ToU32(id), ToI32(v)))
  {
  }

  /** The `=` must follow the id immediately. */
  lemma ParseRejectsSpaceBeforeEquals()
    ensures ParsePair("7 =3") == None
  {
    var t := "7 =3";
    assert t == "7" + " =3";
    ScanDigits("7", " =3");
  }

  /** A negative id is accepted by `%u` and wraps to 32 bits. */
  lemma ParseWrapsNegativeId()
    ensures ParsePair("-1=0") == Some((U32Modulus - 1, 0))
  {
    var t := "-1=0";
    ScanMinusOne();
    assert t[3..] == "0";
    ScanZero();
    ParseSteps(t, -1, 2, 0, 1);
  }

  lemma ScanMinusOne()
    ensures ScanInteger("-1=0") == Some((-1, 2))
  {
    assert "-1=0" == ['-'] + ("1" + "=0");
    ScanNegative("1", "=0");
    assert DigitsValue("1") == 1 by { assert "1"[..0] == ""; }
  }

  lemma ScanZero()
    ensures ScanInteger("0") == Some((0, 1))
  {
    assert "0" == "0" + "";
    ScanDigits("0", "");
    assert DigitsValue("0") == 0 by { assert "0"[..0] == ""; }
  }
}

=== FILE: color_model.dfy ===
/** The colour-temperature model of both gamma implementations
    (src/modules/gamma.c and src/gamma.c): the Kelvin -> 8-bit channel
    mapping and its inverse, a bounded bisection over integer Kelvin followed
    by snapping to the 50 K grid.

    The logarithmic fits themselves are floating point; they are kept
    uninterpreted (the fields of `Fits`). Only their constant branches and the
    clamp to 255 are modelled exactly. */
module ColorModel {
  import opened Common

  const MinTemp: int := 1000
  const MaxTemp: int := 10000
  /** The breakpoint where red saturates from below and blue from above. */
  const Neutral: int := 6500
  /** Below or at this temperature blue is off. */
  const BlueCutoff: int := 1900
  /** Iteration cap of the search in src/modules/gamma.c. */
  const Rounds: nat := 10
  /** Grid the search result is snapped to. */
  const Grid: int := 50

  type Channel = x: int | 0 <= x <= 255
  type Positive = x: int | x >= 1 witness 1

  /** The three logarithmic fits, as the integer value the double expression
      truncates to before clamping. `warmRed` is used above 6500 K, `coolBlue`
      strictly between 1900 K and 6500 K, `green` everywhere. The red fit is
      positive over the whole range (it is about 204 at 10000 K), which is what
      makes the ratio test of the search well defined. */
  datatype Fits = Fits(warmRed: int -> Positive, green: int -> nat, coolBlue: int -> nat)

  /** `clamp(x, max)`: saturate at `max`. */
  function Clamp(x: nat, max: nat): (r: nat)
    ensures r <= max && r <= x
    ensures x <= max ==> r == x
    ensures x >= max ==> r == max
  {
    if x > max then max else x
  }

  function Red(f: Fits, temp: int): (r: Channel)
    ensures temp <= Neutral ==> r == 255
    ensures temp > Neutral ==> r == Clamp(f.warmRed(temp), 255)
    ensures r >= 1
  {
    if temp <= Neutral then 255 else Clamp(f.warmRed(temp), 255)
  }

  /** The green fit, clamped; no temperature has a constant branch. */
  function Green(f: Fits, temp: int): Channel
  {
    Clamp(f.green(temp), 255)
  }

  function Blue(f: Fits, temp: int): (r: Channel)
    ensures temp <= BlueCutoff ==> r == 0
    ensures temp >= Neutral ==> r == 255
    ensures BlueCutoff < temp < Neutral ==> r == Clamp(f.coolBlue(temp), 255)
  {
    if temp <= BlueCutoff then 0
    else if temp < Neutral then Clamp(f.coolBlue(temp), 255)
    else 255
  }

  /** `temp` maps back onto the sampled (R, B) pair exactly. */
  predicate Reproduces(f: Fits, temp: int, R: u16, B: u16) {
    Red(f, temp) == R && Blue(f, temp) == B
  }

  /** The current search interval [lo, hi] of the bisection. */
  datatype Interval = Interval(lo: int, hi: int)

  predicate ValidInterval(iv: Interval) {
    MinTemp <= iv.lo <= iv.hi <= MaxTemp
  }

  /** Initial bounds: a saturated blue means the answer is at least 6500 K, a
      saturated red means it is at most 6500 K. */
  function InitialInterval(R: u16, B: u16): (iv: Interval)
    ensures ValidInterval(iv)
    ensures iv.lo == Neutral <==> B == 255
    ensures iv.lo == MinTemp <==> B != 255
    ensures iv.hi == Neutral <==> R == 255
    ensures iv.hi == MaxTemp <==> R != 255
  {
    Interval(if B == 255 then Neutral else MinTemp, if R == 255 then Neutral else MaxTemp)
  }

  /** The probe point `(max_temp + min_temp) / 2`. */
  function Midpoint(iv: Interval): (m: int)
    requires ValidInterval(iv)
    ensures iv.lo <= m <= iv.hi
    ensures m - iv.lo <= iv.hi - m <= m - iv.lo + 1
  {
    (iv.lo + iv.hi) / 2
  }

  /** The probe's blue-to-red ratio exceeds the target's, compared by
      cross-multiplication (both denominators are positive). */
  predicate TooBlue(f: Fits, temp: int, R: u16, B: u16)
    requires R > 0
  {
    Blue(f, temp) * R > B * Red(f, temp)
  }

  /** One bisection step: keep the lower half when the probe is bluer than the
      target, the upper half otherwise. The probe becomes the new bound. */
  function Narrow(f: Fits, R: u16, B: u16, iv: Interval): (next: Interval)
    requires R > 0 && ValidInterval(iv)
    ensures ValidInterval(next)
    ensures iv.lo <= next.lo && next.hi <= iv.hi
    ensures TooBlue(f, Midpoint(iv), R, B) ==> next == Interval(iv.lo, Midpoint(iv))
    ensures !TooBlue(f, Midpoint(iv), R, B) ==> next == Interval(Midpoint(iv), iv.hi)
  {
    var m := Midpoint(iv);
    if TooBlue(f, m, R, B) then Interval(iv.lo, m) else Interval(m, iv.hi)
  }

  /** Where a capped search stopped: the last probe and how many rounds ran. */
  datatype Probe = Probe(temp: int, rounds: nat)

  /** The do-while loop of src/modules/gamma.c, entered after `done` rounds:
      probe the midpoint, narrow, and go on while the probe does not reproduce
      (R, B) and fewer than ten rounds have run. */
  function CappedSearch(f: Fits, R: u16, B: u16, iv: Interval, done: nat): (p: Probe)
    requires R > 0 && ValidInterval(iv) && done < Rounds
    ensures iv.lo <= p.temp <= iv.hi
    ensures done < p.rounds <= Rounds
    ensures p.rounds < Rounds ==> Reproduces(f, p.temp, R, B)
    decreases Rounds - done
  {
    var t := Midpoint(iv);
    if Reproduces(f, t, R, B) || done + 1 == Rounds then Probe(t, done + 1)
    else CappedSearch(f, R, B, Narrow(f, R, B, iv), done + 1)
  }

  /** The do-while loop of src/gamma.c, which has no cap: it only leaves when
      a probe reproduces (R, B). `fuel` bounds the number of rounds the model
      runs; `None` means the loop is still going after that many. */
  function UncappedSearch(f: Fits, R: u16, B: u16, iv: Interval, fuel: nat): (r: Option<int>)
    requires R > 0 && ValidInterval(iv)
    ensures r.Some? ==> iv.lo <= r.value <= iv.hi && Reproduces(f, r.value, R, B)
    decreases fuel
  {
    if fuel == 0 then None
    else
      var t := Midpoint(iv);
      if Reproduces(f, t, R, B) then Some(t)
      else UncappedSearch(f, R, B, Narrow(f, R, B, iv), fuel - 1)
  }

  /** Try the round-down multiple of 50, then the round-up one; take the
      first that still reproduces (R, B). */
  function Snap(f: Fits, R: u16, B: u16, temp: int): (s: int)
    requires MinTemp <= temp <= MaxTemp
    ensures MinTemp <= s <= MaxTemp
    ensures temp % Grid == 0 ==> s == temp
    ensures s != temp ==> s % Grid == 0 && Reproduces(f, s, R, B)
    ensures s != temp ==> s == temp - temp % Grid || s == temp - temp % Grid + Grid
    ensures temp % Grid != 0 && Reproduces(f, temp - temp % Grid, R, B) ==> s == temp - temp % Grid
    ensures s == temp - temp % Grid + Grid ==> !Reproduces(f, temp - temp % Grid, R, B)
    ensures (temp % Grid != 0 && !Reproduces(f, temp - temp % Grid, R, B)
             && Reproduces(f, temp - temp % Grid + Grid, R, B)) ==> s == temp - temp % Grid + Grid
    ensures Reproduces(f, temp, R, B) ==> Reproduces(f, s, R, B)
  {
    if temp % Grid == 0 then temp
    else
      var down := temp - temp % Grid;
      var up := temp + Grid - temp % Grid;
      if Reproduces(f, down, R, B) then down
      else if Reproduces(f, up, R, B) then up
      else temp
  }

  /** `get_temp` of src/modules/gamma.c. */
  function GetTemp(f: Fits, R: u16, B: u16): (t: int)
    requires R > 0
    ensures MinTemp <= t <= MaxTemp
    ensures R == 255 && B == 255 ==> t == Neutral
    ensures CappedSearch(f, R, B, InitialInterval(R, B), 0).rounds < Rounds ==> Reproduces(f, t, R, B)
  {
    Snap(f, R, B, CappedSearch(f, R, B, InitialInterval(R, B), 0).temp)
  }

  /** `get_temp` of src/gamma.c, run for at most `fuel` rounds. */
  function GetTempUncapped(f: Fits, R: u16, B: u16, fuel: nat): (r: Option<int>)
    requires R > 0
    ensures r.Some? ==> MinTemp <= r.value <= MaxTemp && Reproduces(f, r.value, R, B)
    ensures R == 255 && B == 255 && fuel > 0 ==> r == Some(Neutral)
  {
    match UncappedSearch(f, R, B, InitialInterval(R, B), fuel)
    case None => None
    case Some(t) => Some(Snap(f, R, B, t))
  }

  /** Once the interval has shrunk to at most one Kelvin and its lower end does
      not reproduce (R, B), the probe is stuck at the lower end: the uncapped
      loop of src/gamma.c never leaves, however long it runs. */
  lemma {:induction false} UncappedSearchStalls(f: Fits, R: u16, B: u16, iv: Interval, fuel: nat)
    requires R > 0 && ValidInterval(iv)
    requires iv.hi - iv.lo <= 1 && !Reproduces(f, iv.lo, R, B)
    ensures UncappedSearch(f, R, B, iv, fuel) == None
    decreases fuel
  {
    if fuel > 0 {
      var next := Narrow(f, R, B, iv);
      assert Midpoint(iv) == iv.lo;
      assert next.lo == iv.lo && next.hi - next.lo <= 1;
      UncappedSearchStalls(f, R, B, next, fuel - 1);
    }
  }

  /** Both loops probe the same midpoints. When the uncapped loop succeeds
      within the rounds the capped loop has left, the two return the same
      temperature, and the capped one stops in the same round. */
  lemma {:induction false} CappedAgreesWithUncapped(f: Fits, R: u16, B: u16, iv: Interval, done: nat, fuel: nat)
    requires R > 0 && ValidInterval(iv) && done < Rounds
    requires done + fuel <= Rounds
    requires UncappedSearch(f, R, B, iv, fuel).Some?
    ensures CappedSearch(f, R, B, iv, done).temp == UncappedSearch(f, R, B, iv, fuel).value
    decreases fuel
  {
    var t := Midpoint(iv);
    if !Reproduces(f, t, R, B) {
      CappedAgreesWithUncapped(f, R, B, Narrow(f, R, B, iv), done + 1, fuel - 1);
    }
  }

  /** Whenever src/gamma.c's `get_temp` answers within ten rounds, it answers
      the same as the capped `get_temp` of src/modules/gamma.c. */
  lemma GetTempVariantsAgree(f: Fits, R: u16, B: u16, fuel: nat)
    requires R > 0 && fuel <= Rounds
    requires GetTempUncapped(f, R, B, fuel).Some?
    ensures GetTempUncapped(f, R, B, fuel) == Some(GetTemp(f, R, B))
  {
    CappedAgreesWithUncapped(f, R, B, InitialInterval(R, B), 0, fuel);
  }
}

=== FILE: common.dfy ===
/** Shared vocabulary: optional values, method replies, fixed-width integer
    ranges of the C types involved, and the errno values the daemon returns. */
module Common {

  /** A value that may be absent (a NULL pointer, a failed lookup). */
  datatype Option<+T> = None | Some(value: T)

  /** What a bus method does: reply with a value, or return `ret` (the C
      return value of the handler, usually a negated errno) without replying. */
  datatype Reply<+T> = Replied(value: T) | Failed(ret: int)

  type u8 = x: int | 0 <= x < 0x100
  type u16 = x: int | 0 <= x < 0x1_0000
  type u32 = x: int | 0 <= x < 0x1_0000_0000
  type i32 = x: int | -0x8000_0000 <= x < 0x8000_0000

  const U32Modulus: int := 0x1_0000_0000

  /** C conversion of an int to `unsigned int`: reduction modulo 2^32. */
  function ToU32(x: int): (r: u32)
    ensures 0 <= x < U32Modulus ==> r == x
    ensures -U32Modulus <= x < 0 ==> r == x + U32Modulus
  {
    x % U32Modulus
  }

  const EPERM: int := 1
  const EINTR: int := 4
  const ENXIO: int := 6
  const EINVAL: int := 22
}

=== FILE: dpms.dfy ===
/** Display power management of src/dpms.c: the DRM read ("first connector
    wins") and write ("apply to every connector"), the bus methods, and the X
    helpers that bracket their DPMS calls with the XAUTHORITY cookie and the
    display connection. libdrm and Xlib answers arrive as parameters; what
    the code does with the process (calls made, objects kept) is recorded. */
module Dpms {
  import opened Common
  import opened DrmUtils

  /** What the DRM calls answer for one entry of `res->connectors`: the
      connector lookup, the property lookups of its property ids, the DPMS
      value read for it, and whether setting its DPMS property fails. */
  datatype ConnectorProbe = ConnectorProbe(
    lookup: Option<Connector>, props: seq<Option<Property>>, dpmsValue: int, setFails: bool)

  const DpmsDisabled: int := -1

  /** An active connector with a "DPMS" property: the connectors both
      directions act on. */
  predicate Qualifies(p: ConnectorProbe) {
    GetActiveConnector(p.lookup).active.Some? && DrmGetProp(p.props, "DPMS").found.Some?
  }

  /** An active connector without a "DPMS" property. */
  predicate ActiveWithoutDpms(p: ConnectorProbe) {
    GetActiveConnector(p.lookup).active.Some? && DrmGetProp(p.props, "DPMS").found.None?
  }

  ghost predicate FirstQualifying(ps: seq<ConnectorProbe>, k: nat) {
    k < |ps| && Qualifies(ps[k]) && forall j :: 0 <= j < k ==> !Qualifies(ps[j])
  }

  /** Ids of the active connectors without DPMS among `ps`, in order. */
  function KeptWithoutDpms(ps: seq<ConnectorProbe>): (ids: seq<int>)
    ensures |ids| <= |ps|
  {
    if |ps| == 0 then []
    else (if ActiveWithoutDpms(ps[0]) then [ps[0].lookup.value.id] else []) + KeptWithoutDpms(ps[1..])
  }

  /** The result of the DRM read: the state, and the connectors it obtained
      and never released. */
  datatype DpmsRead = DpmsRead(state: int, leaked: seq<int>)

  /** The connector loop of `drm_get_dpms`. With `releaseUnmatched` false it
      is the loop as written, which moves on from an active connector without
      DPMS without freeing it; with `releaseUnmatched` true that connector is
      freed, as `drm_set_dpms` does. */
  function ScanDpms(ps: seq<ConnectorProbe>, releaseUnmatched: bool): (r: DpmsRead)
    ensures releaseUnmatched ==> r.leaked == []
    ensures (forall i :: 0 <= i < |ps| ==> !Qualifies(ps[i])) ==>
      r.state == DpmsDisabled && r.leaked == (if releaseUnmatched then [] else KeptWithoutDpms(ps))
    ensures forall k: nat :: FirstQualifying(ps, k) ==>
      r.state == ps[k].dpmsValue && r.leaked == (if releaseUnmatched then [] else KeptWithoutDpms(ps[..k]))
    decreases |ps|
  {
    if |ps| == 0 then DpmsRead(DpmsDisabled, [])
    else if Qualifies(ps[0]) then
      FirstIsFirst(ps);
      DpmsRead(ps[0].dpmsValue, [])
    else
      var rest := ScanDpms(ps[1..], releaseUnmatched);
      var mine := if ActiveWithoutDpms(ps[0]) && !releaseUnmatched then [ps[0].lookup.value.id] else [];
      SkipFirst(ps, releaseUnmatched);
      DpmsRead(rest.state, mine + rest.leaked)
  }

  lemma FirstIsFirst(ps: seq<ConnectorProbe>)
    requires |ps| > 0 && Qualifies(ps[0])
    ensures forall k: nat :: FirstQualifying(ps, k) ==> k == 0
    ensures ps[..0] == []
  {
  }

  /** Passing over a connector that does not qualify: the first qualifying
      one of the rest is one further on, and the kept connectors gain this
      one when it is active. */
  lemma SkipFirst(ps: seq<ConnectorProbe>, releaseUnmatched: bool)
    requires |ps| > 0 && !Qualifies(ps[0])
    ensures forall k: nat :: FirstQualifying(ps, k) ==>
      k > 0 && FirstQualifying(ps[1..], k - 1) && KeptWithoutDpms(ps[..k]) ==
        (if ActiveWithoutDpms(ps[0]) then [ps[0].lookup.value.id] else []) + KeptWithoutDpms(ps[1..][..k - 1])
    ensures (forall i :: 0 <= i < |ps| ==> !Qualifies(ps[i])) ==>
      (forall i :: 0 <= i < |ps| - 1 ==> !Qualifies(ps[1..][i]))
    ensures KeptWithoutDpms(ps) ==
      (if ActiveWithoutDpms(ps[0]) then [ps[0].lookup.value.id] else []) + KeptWithoutDpms(ps[1..])
  {
    forall k: nat | FirstQualifying(ps, k)
      ensures k > 0 && FirstQualifying(ps[1..], k - 1)
      ensures KeptWithoutDpms(ps[..k]) ==
        (if ActiveWithoutDpms(ps[0]) then [ps[0].lookup.value.id] else []) + KeptWithoutDpms(ps[1..][..k - 1])
    {
      assert k > 0;
      forall j | 0 <= j < k - 1 ensures !Qualifies(ps[1..][j]) { assert ps[1..][j] == ps[j + 1]; }
      assert ps[..k][1..] == ps[1..][..k - 1] && ps[..k][0] == ps[0];
    }
    assert forall i :: 0 <= i < |ps| - 1 ==> ps[1..][i] == ps[i + 1];
  }

  /** `drm_get_dpms` as written. `res` is what `drmModeGetResources` returned
      (`None` also when the node could not be opened). */
  function DrmGetDpmsAsWritten(res: Option<seq<ConnectorProbe>>): (r: DpmsRead)
    ensures res.None? ==> r == DpmsRead(DpmsDisabled, [])
    ensures res.Some? ==> r == ScanDpms(res.value, false)
  {
    match res
    case None => DpmsRead(DpmsDisabled, [])
    case Some(ps) => ScanDpms(ps, false)
  }

  /** Two active connectors, the first without DPMS and the second with it:
      the loop as written reports the second one's state and never frees the
      first. */
  lemma DrmGetDpmsLeaks()
    ensures var c1 := Connector(31, Connected, 1, 40);
            var c2 := Connector(32, Connected, 1, 41);
            var noDpms := ConnectorProbe(Some(c1), [Some(Property(1, "EDID"))], 0, false);
            var withDpms := ConnectorProbe(Some(c2), [Some(Property(2, "DPMS"))], 3, false);
            && DrmGetDpmsAsWritten(Some([noDpms, withDpms])) == DpmsRead(3, [31])
            && DrmGetDpms(Some([noDpms, withDpms])) == DpmsRead(3, [])
  {
    var c1 := Connector(31, Connected, 1, 40);
    var c2 := Connector(32, Connected, 1, 41);
    var noDpms := ConnectorProbe(Some(c1), [Some(Property(1, "EDID"))], 0, false);
    var withDpms := ConnectorProbe(Some(c2), [Some(Property(2, "DPMS"))], 3, false);
    var ps := [noDpms, withDpms];
    assert "EDID" != "DPMS" by { assert "EDID"[0] != "DPMS"[0]; }
    assert ActiveWithoutDpms(noDpms) && !Qualifies(noDpms);
    assert Qualifies(withDpms);
    assert FirstQualifying(ps, 1);
    assert ps[..1] == [noDpms] && [noDpms][1..] == [];
    assert KeptWithoutDpms(ps[..1]) == [31];
  }

  /** `drm_get_dpms` with the unmatched connectors freed: the state of the
      first active connector that has DPMS, -1 when there is none, and nothing
      left allocated. */
  function DrmGetDpms(res: Option<seq<ConnectorProbe>>): (r: DpmsRead)
    ensures r.leaked == []
    ensures res.None? ==> r.state == DpmsDisabled
    ensures res.Some? && (forall i :: 0 <= i < |res.value| ==> !Qualifies(res.value[i])) ==>
      r.state == DpmsDisabled
    ensures res.Some? ==> forall k: nat :: FirstQualifying(res.value, k) ==> r.state == res.value[k].dpmsValue
    ensures r.state == DrmGetDpmsAsWritten(res).state
  {
    match res
    case None => DpmsRead(DpmsDisabled, [])
    case Some(ps) =>
      var fixed := ScanDpms(ps, true);
      ScanAgrees(ps);
      assert fixed.state == ScanDpms(ps, false).state;
      fixed
  }

  /** Freeing the unmatched connectors does not change the state read. */
  lemma {:induction false} ScanAgrees(ps: seq<ConnectorProbe>)
    ensures ScanDpms(ps, true).state == ScanDpms(ps, false).state
    decreases |ps|
  {
    if |ps| > 0 && !Qualifies(ps[0]) {
      ScanAgrees(ps[1..]);
    }
  }

  /** `drmModeConnectorSetProperty(fd, connector, prop, level)`. */
  datatype DpmsWrite = DpmsWrite(connector: int, prop: int, level: int)

  function WriteFor(p: ConnectorProbe, level: int): DpmsWrite
    requires Qualifies(p)
  {
    DpmsWrite(p.lookup.value.id, DrmGetProp(p.props, "DPMS").found.value.id, level)
  }

  /** Reference: one write per qualifying connector, in connector order. */
  function Writes(ps: seq<ConnectorProbe>, level: int): seq<DpmsWrite>
    decreases |ps|
  {
    if |ps| == 0 then []
    else Writes(ps[..|ps| - 1], level) + (if Qualifies(ps[|ps| - 1]) then [WriteFor(ps[|ps| - 1], level)] else [])
  }

  /** Reference: the qualifying connectors whose write fails (each is logged
      with `perror`), in connector order. */
  function Failures(ps: seq<ConnectorProbe>): seq<int>
    decreases |ps|
  {
    if |ps| == 0 then []
    else Failures(ps[..|ps| - 1])
         + (if Qualifies(ps[|ps| - 1]) && ps[|ps| - 1].setFails then [ps[|ps| - 1].lookup.value.id] else [])
  }

  /** `drm_set_dpms(level)`: the writes issued and the failures logged. */
  method DrmSetDpms(res: Option<seq<ConnectorProbe>>, level: int) returns (writes: seq<DpmsWrite>, logged: seq<int>)
    ensures res.None? ==> writes == [] && logged == []
    ensures res.Some? ==> writes == Writes(res.value, level) && logged == Failures(res.value)
  {
    writes, logged := [], [];
    if res.None? {
      return;
    }
    var ps := res.value;
    var i := 0;
    while i < |ps|
      invariant 0 <= i <= |ps|
      invariant writes == Writes(ps[..i], level)
      invariant logged == Failures(ps[..i])
    {
      assert ps[..i + 1][..i] == ps[..i];
      var p := ps[i];
      var pick := GetActiveConnector(p.lookup);
      if pick.active.Some? {
        var prop := DrmGetProp(p.props, "DPMS");
        if prop.found.Some? {
          writes := writes + [DpmsWrite(pick.active.value.id, prop.found.value.id, level)];
          if p.setFails {
            logged := logged + [pick.active.value.id];
          }
        }
      }
      i := i + 1;
    }
    assert ps[..|ps|] == ps;
  }

  /** Every qualifying connector is written, whether or not an earlier write
      failed, every write targets a qualifying connector, and every write
      carries the requested level. */
  lemma {:induction false} WritesCoverQualifying(ps: seq<ConnectorProbe>, level: int)
    ensures forall i :: 0 <= i < |ps| && Qualifies(ps[i]) ==> WriteFor(ps[i], level) in Writes(ps, level)
    ensures forall w :: w in Writes(ps, level) ==>
              w.level == level && exists i :: 0 <= i < |ps| && Qualifies(ps[i]) && w == WriteFor(ps[i], level)
    decreases |ps|
  {
    if |ps| > 0 {
      var init := ps[..|ps| - 1];
      WritesCoverQualifying(init, level);
      forall i | 0 <= i < |init| ensures init[i] == ps[i] { }
    }
  }

  /** `method_getdpms` (parameter decoding left out): always replies, with -1
      when no connector reports DPMS. */
  function MethodGetDpms(res: Option<seq<ConnectorProbe>>): (o: Reply<int>)
    ensures o.Replied?
    ensures res.None? ==> o == Replied(DpmsDisabled)
    ensures res.Some? ==> forall k: nat :: FirstQualifying(res.value, k) ==> o == Replied(res.value[k].dpmsValue)
    ensures res.Some? && (forall i :: 0 <= i < |res.value| ==> !Qualifies(res.value[i])) ==>
      o == Replied(DpmsDisabled)
  {
    Replied(DrmGetDpms(res).state)
  }

  /** `method_setdpms` (authorisation and decoding left out): it returns right
      after `drm_set_dpms`, so the level range check and the X path after it
      are never reached; whatever the level, it is written and echoed. */
  method MethodSetDpms(res: Option<seq<ConnectorProbe>>, level: i32) returns (o: Reply<int>, writes: seq<DpmsWrite>)
    ensures o == Replied(level)
    ensures res.None? ==> writes == []
    ensures res.Some? ==> writes == Writes(res.value, level)
    ensures res.Some? ==> forall i :: 0 <= i < |res.value| && Qualifies(res.value[i]) ==> WriteFor(res.value[i], level) in writes
    ensures forall w :: w in writes ==> w.level == level
  {
    var logged;
    writes, logged := DrmSetDpms(res, level);
    if res.Some? {
      WritesCoverQualifying(res.value, level);
    }
    o := Replied(level);
  }

  /** The X side: what `XOpenDisplay`, `DPMSCapable` and `DPMSInfo` answer,
      and the timeouts `DPMSGetTimeouts` reports. */
  datatype XServer = XServer(opens: bool, capable: bool, enabled: bool, timeouts: Timeouts)

  /** `struct dpms_timeout`: three CARD16 values, in seconds. */
  datatype Timeouts = Timeouts(standby: u16, suspend: u16, off: u16)

  /** The process-visible effects of the X helpers, in order. */
  datatype XEvent =
    | SetCookie(xauthority: string)
    | OpenDisplay(display: string)
    | DpmsEnable
    | DpmsForceLevel(level: int)
    | DpmsSetTimeouts(t: Timeouts)
    | DpmsGetTimeouts
    | Flush
    | UnsetCookie
    | CloseDisplay

  predicate IsDisplayCall(e: XEvent) {
    e.DpmsEnable? || e.DpmsForceLevel? || e.DpmsSetTimeouts? || e.DpmsGetTimeouts? || e.Flush?
  }

  /** The cookie is set before the display is opened and unset after the last
      display call; the display is closed, last, exactly when it was opened. */
  ghost predicate CookieScoped(events: seq<XEvent>, display: string, xauthority: string, isOpen: bool) {
    var u := |events| - (if isOpen then 2 else 1);
    && u >= 2
    && events[0] == SetCookie(xauthority) && events[1] == OpenDisplay(display)
    && events[u] == UnsetCookie
    && (forall i :: 2 <= i < u ==> IsDisplayCall(events[i]))
    && (isOpen <==> CloseDisplay in events)
    && (isOpen ==> events[|events| - 1] == CloseDisplay)
  }

  /** The bracket the three helpers share around their display calls. */
  function Scoped(display: string, xauthority: string, isOpen: bool, calls: seq<XEvent>): (events: seq<XEvent>)
    requires forall i :: 0 <= i < |calls| ==> IsDisplayCall(calls[i])
    ensures CookieScoped(events, display, xauthority, isOpen)
    ensures |events| >= |calls| + 3 && events[2..|calls| + 2] == calls
    ensures |events| == |calls| + (if isOpen then 4 else 3)
  {
    var body := [SetCookie(xauthority), OpenDisplay(display)] + calls + [UnsetCookie];
    var events := body + (if isOpen then [CloseDisplay] else []);
    assert forall i :: 2 <= i < |calls| + 2 ==> events[i] == calls[i - 2];
    assert forall i :: 0 <= i < |body| ==> body[i] != CloseDisplay by {
      forall i | 0 <= i < |body| ensures body[i] != CloseDisplay {
        if i == 0 {
          assert body[0] == SetCookie(xauthority);
        } else if i == 1 {
          assert body[1] == OpenDisplay(display);
        } else if i < |calls| + 2 {
          assert body[i] == calls[i - 2] && IsDisplayCall(calls[i - 2]);
        } else {
          assert body[i] == UnsetCookie;
        }
      }
    }
    assert events[2..|calls| + 2] == calls;
    events
  }

  /** What an X helper did: its return value, its effects, and the timeouts it
      filled in. */
  datatype XSession = XSession(ret: int, events: seq<XEvent>, read: Timeouts)

  const NoDisplay: int := -2

  /** `set_dpms_state(display, xauthority, level)`. */
  function SetDpmsState(display: string, xauthority: string, level: int, x: XServer): (s: XSession)
    ensures CookieScoped(s.events, display, xauthority, x.opens)
    ensures s.ret == (if x.opens && x.capable then 0 else NoDisplay)
    ensures DpmsForceLevel(level) in s.events <==> x.opens && x.capable
    ensures s.events[2..|s.events| - (if x.opens then 2 else 1)] ==
            if x.opens && x.capable then [DpmsEnable, DpmsForceLevel(level), Flush] else []
  {
    var calls := if x.opens && x.capable then [DpmsEnable, DpmsForceLevel(level), Flush] else [];
    var s := XSession(if x.opens && x.capable then 0 else NoDisplay, Scoped(display, xauthority, x.opens, calls),
                      Timeouts(0, 0, 0));
    assert s.events[2..|calls| + 2] == calls;
    assert x.opens && x.capable ==> s.events[3] == DpmsForceLevel(level);
    s
  }

  /** `get_dpms_timeouts(display, xauthority, t)`, with `t` zeroed by the
      caller: 0 and the server's timeouts when DPMS is enabled, -1 when it is
      disabled, -2 when there is no DPMS-capable display. */
  function GetDpmsTimeouts(display: string, xauthority: string, x: XServer): (s: XSession)
    ensures CookieScoped(s.events, display, xauthority, x.opens)
    ensures !(x.opens && x.capable) ==> s.ret == NoDisplay && s.read == Timeouts(0, 0, 0)
    ensures x.opens && x.capable ==> s.ret == (if x.enabled then 0 else DpmsDisabled)
    ensures s.ret == 0 <==> x.opens && x.capable && x.enabled
    ensures s.ret == 0 ==> s.read == x.timeouts
    ensures s.ret != 0 ==> s.read == Timeouts(0, 0, 0)
    ensures s.events[2..|s.events| - (if x.opens then 2 else 1)] == if s.ret == 0 then [DpmsGetTimeouts] else []
  {
    if x.opens && x.capable && x.enabled then
      XSession(0, Scoped(display, xauthority, true, [DpmsGetTimeouts]), x.timeouts)
    else
      XSession(if x.opens && x.capable then DpmsDisabled else NoDisplay, Scoped(display, xauthority, x.opens, []),
               Timeouts(0, 0, 0))
  }

  /** `set_dpms_timeouts(display, xauthority, t)`. */
  function SetDpmsTimeouts(display: string, xauthority: string, t: Timeouts, x: XServer): (s: XSession)
    ensures CookieScoped(s.events, display, xauthority, x.opens)
    ensures s.ret == (if x.opens && x.capable then 0 else NoDisplay)
    ensures DpmsSetTimeouts(t) in s.events <==> x.opens && x.capable
    ensures s.events[2..|s.events| - (if x.opens then 2 else 1)] ==
            if x.opens && x.capable then [DpmsEnable, DpmsSetTimeouts(t), Flush] else []
  {
    var calls := if x.opens && x.capable then [DpmsEnable, DpmsSetTimeouts(t), Flush] else [];
    var s := XSession(if x.opens && x.capable then 0 else NoDisplay, Scoped(display, xauthority, x.opens, calls),
                      Timeouts(0, 0, 0));
    assert s.events[2..|calls| + 2] == calls;
    assert x.opens && x.capable ==> s.events[3] == DpmsSetTimeouts(t);
    s
  }

  /** C conversion of a non-negative `int` to CARD16. */
  function ToCard16(v: nat): (c: u16)
    ensures v < 0x1_0000 ==> c == v
  {
    v % 0x1_0000
  }

  /** `method_getdpms_timeouts`: -1 (returned as is) when DPMS is disabled;
      otherwise the reply carries `t`, which stays zero when no DPMS-capable
      display could be opened. */
  function MethodGetDpmsTimeouts(display: string, xauthority: string, x: XServer): (o: Reply<(int, int, int)>)
    ensures x.opens && x.capable && !x.enabled <==> o == Failed(DpmsDisabled)
    ensures x.opens && x.capable && x.enabled ==>
      o == Replied((x.timeouts.standby, x.timeouts.suspend, x.timeouts.off))
    ensures !(x.opens && x.capable) ==> o == Replied((0, 0, 0))
  {
    var s := GetDpmsTimeouts(display, xauthority, x);
    if s.ret == DpmsDisabled then Failed(DpmsDisabled)
    else Replied((s.read.standby, s.read.suspend, s.read.off))
  }

  /** What `method_setdpms_timeouts` did: its reply and the X effects. */
  datatype TimeoutsOutcome = TimeoutsOutcome(reply: Reply<(int, int, int)>, events: seq<XEvent>)

  /** `method_setdpms_timeouts` (authorisation and decoding left out). Negative
      values are rejected before any X call; the server gets the values
      truncated to CARD16, and the reply echoes the values as received. */
  function MethodSetDpmsTimeouts(display: string, xauthority: string, standby: i32, suspend: i32, off: i32,
                                 x: XServer): (o: TimeoutsOutcome)
    ensures standby < 0 || suspend < 0 || off < 0 ==> o == TimeoutsOutcome(Failed(-EINVAL), [])
    ensures standby >= 0 && suspend >= 0 && off >= 0 ==>
      && CookieScoped(o.events, display, xauthority, x.opens)
      && (x.opens && x.capable ==>
            o.reply == Replied((standby, suspend, off))
            && DpmsSetTimeouts(Timeouts(ToCard16(standby), ToCard16(suspend), ToCard16(off))) in o.events)
      && (!(x.opens && x.capable) ==> o.reply == Failed(NoDisplay))
      && o.events[2..|o.events| - (if x.opens then 2 else 1)] ==
           if x.opens && x.capable
           then [DpmsEnable, DpmsSetTimeouts(Timeouts(ToCard16(standby), ToCard16(suspend), ToCard16(off))), Flush]
           else []
  {
    if standby < 0 || suspend < 0 || off < 0 then TimeoutsOutcome(Failed(-EINVAL), [])
    else
      var t := Timeouts(ToCard16(standby), ToCard16(suspend), ToCard16(off));
      var s := SetDpmsTimeouts(display, xauthority, t, x);
      TimeoutsOutcome(if s.ret != 0 then Failed(s.ret) else Replied((standby, suspend, off)), s.events)
  }

  /** A timeout of 70000 s reaches the server as 4464 s, while the reply
      reports 70000. */
  lemma TimeoutTruncatedToCard16(display: string, xauthority: string, x: XServer)
    requires x.opens && x.capable
    ensures var o := MethodSetDpmsTimeouts(display, xauthority, 70000, 0, 0, x);
            o.reply == Replied((70000, 0, 0)) && DpmsSetTimeouts(Timeouts(4464, 0, 0)) in o.events
  {
  }
}

=== FILE: drm_gamma.dfy ===
/** The DRM backend of src/gamma.c: `drm_set_temperature` writes one ramp per
    CRTC of /dev/dri/card0 under DRM master, `get_drm_gamma` samples CRTC 0's
    ramp at index 1 and inverts it with the uncapped search. libdrm calls are
    represented by their results; the calls the backend issues are recorded. */
module DrmGamma {
  import opened Common
  import opened ColorModel
  import opened Ramp

  /** A CRTC as `drmModeGetCrtc` reports it, and whether the driver rejects a
      `drmModeCrtcSetGamma` for it. */
  datatype Crtc = Crtc(id: int, gammaSize: nat, rejectsGamma: bool)

  /** The card node as the backend sees it: the CRTC list of
      `drmModeGetResources`, or `None` when that call fails (it does when the
      node could not be opened). */
  datatype DrmNode = DrmNode(resources: Option<seq<Crtc>>)

  /** The calls `drm_set_temperature` makes that change device state. */
  datatype DrmCall = OpenNode | SetMaster | SetCrtcGamma(crtc: int, ramp: GammaRamp) | DropMaster | CloseNode

  /** What `drm_set_temperature` did: its return value, its calls in order,
      and the CRTCs whose ramp the driver rejected (logged with `perror`). */
  datatype SetReport = SetReport(ret: int, calls: seq<DrmCall>, rejected: set<int>)

  /** Master access is taken right after opening and dropped right before
      closing, with only ramp writes in between. */
  ghost predicate MasterPaired(calls: seq<DrmCall>) {
    && |calls| >= 4
    && calls[0] == OpenNode && calls[1] == SetMaster
    && calls[|calls| - 2] == DropMaster && calls[|calls| - 1] == CloseNode
    && forall i :: 2 <= i < |calls| - 2 ==> calls[i].SetCrtcGamma?
  }

  function CrtcWrites(f: Fits, temp: int, crtcs: seq<Crtc>): (cs: seq<DrmCall>)
    ensures |cs| == |crtcs|
    ensures forall i :: 0 <= i < |crtcs| ==> cs[i] == SetCrtcGamma(crtcs[i].id, BuildRamp(f, temp, crtcs[i].gammaSize))
  {
    seq(|crtcs|, i requires 0 <= i < |crtcs| => SetCrtcGamma(crtcs[i].id, BuildRamp(f, temp, crtcs[i].gammaSize)))
  }

  /** `drm_set_temperature(temp)`. Every path, including a failed open or a
      failed resource query, sets and drops master and closes the node, and the
      function always returns 0. A rejected ramp does not stop the loop. */
  function DrmSetTemperature(f: Fits, temp: int, n: DrmNode): (r: SetReport)
    ensures r.ret == 0
    ensures MasterPaired(r.calls)
    ensures n.resources.None? ==> r.calls == [OpenNode, SetMaster, DropMaster, CloseNode] && r.rejected == {}
    ensures n.resources.Some? ==>
      var crtcs := n.resources.value;
      && |r.calls| == |crtcs| + 4
      && (forall i :: 0 <= i < |crtcs| ==>
            && r.calls[i + 2] == SetCrtcGamma(crtcs[i].id, BuildRamp(f, temp, crtcs[i].gammaSize))
            && WellFormedRamp(r.calls[i + 2].ramp, crtcs[i].gammaSize))
      && (forall i :: 0 <= i < |crtcs| && crtcs[i].rejectsGamma ==> crtcs[i].id in r.rejected)
      && (forall id :: id in r.rejected ==>
            exists i :: 0 <= i < |crtcs| && crtcs[i].id == id && crtcs[i].rejectsGamma)
  {
    match n.resources
    case None => SetReport(0, Framed([]), {})
    case Some(crtcs) =>
      var writes := CrtcWrites(f, temp, crtcs);
      assert forall i :: 0 <= i < |crtcs| ==> Framed(writes)[i + 2] == writes[i];
      SetReport(0, Framed(writes), set i | 0 <= i < |crtcs| && crtcs[i].rejectsGamma :: crtcs[i].id)
  }

  /** The ramp writes between taking and dropping master. */
  function Framed(writes: seq<DrmCall>): (calls: seq<DrmCall>)
    requires forall i :: 0 <= i < |writes| ==> writes[i].SetCrtcGamma?
    ensures MasterPaired(calls)
    ensures |calls| == |writes| + 4
    ensures forall i :: 0 <= i < |writes| ==> calls[i + 2] == writes[i]
  {
    [OpenNode, SetMaster] + writes + [DropMaster, CloseNode]
  }

  /** What `get_drm_gamma` needs of CRTC 0's table: index 1 exists (the table
      has the CRTC's `gamma_size`), and the red sample is non-zero (the search
      divides by it). */
  predicate Sampleable(r: GammaRamp, size: nat) {
    size >= 2 && |r.red| == size && |r.blue| == size && r.red[1] > 0
  }

  /** `get_drm_gamma()`, with `readback` the result of `drmModeCrtcGetGamma`
      on CRTC 0 (`None` when it fails). `fuel` bounds the uncapped search;
      `None` means it is still searching. */
  function GetDrmGamma(f: Fits, n: DrmNode, readback: Option<GammaRamp>, fuel: nat): (t: Option<int>)
    requires n.resources.Some? ==> |n.resources.value| > 0
    requires n.resources.Some? && readback.Some? ==>
      Sampleable(readback.value, n.resources.value[0].gammaSize)
    ensures n.resources.None? || readback.None? ==> t == Some(-1)
    ensures n.resources.Some? && readback.Some? && t.Some? ==>
      && MinTemp <= t.value <= MaxTemp
      && Reproduces(f, t.value, Clamp(readback.value.red[1], 255), Clamp(readback.value.blue[1], 255))
  {
    match n.resources
    case None => Some(-1)
    case Some(crtcs) =>
      match readback
      case None => Some(-1)
      case Some(r) => GetTempUncapped(f, Clamp(r.red[1], 255), Clamp(r.blue[1], 255), fuel)
  }

  /** On a 256-entry CRTC, index 1 of the ramp `drm_set_temperature` writes is
      the 8-bit channel itself, so reading it back yields a temperature with the
      same red and blue as the one set; 6500 K reads back as 6500 K. */
  lemma DrmReadsBackSetTemperature(f: Fits, temp: int, crtcs: seq<Crtc>, fuel: nat)
    requires |crtcs| > 0 && crtcs[0].gammaSize == 256
    ensures var ramp := BuildRamp(f, temp, 256);
            var t := GetDrmGamma(f, DrmNode(Some(crtcs)), Some(ramp), fuel);
            && (t.Some? ==> Reproduces(f, t.value, Red(f, temp), Blue(f, temp)))
            && (temp == Neutral && fuel > 0 ==> t == Some(Neutral))
  {
    var ramp := BuildRamp(f, temp, 256);
    SecondEntryReadBack(Red(f, temp));
    SecondEntryReadBack(Blue(f, temp));
    assert ramp.red[1] == Red(f, temp);
    assert ramp.blue[1] == Blue(f, temp);
  }

  /** `method_setgamma` (authorisation and decoding left out): the range check,
      then `set_gamma`, which never reports an error. */
  function MethodSetGamma(f: Fits, temp: int, n: DrmNode): (o: (Reply<int>, seq<DrmCall>))
    ensures (temp < MinTemp || temp > MaxTemp) ==> o == (Failed(-EINVAL), [])
    ensures MinTemp <= temp <= MaxTemp ==> o.0 == Replied(temp) && MasterPaired(o.1)
    ensures MinTemp <= temp <= MaxTemp ==> o.1 == DrmSetTemperature(f, temp, n).calls
  {
    if temp < MinTemp || temp > MaxTemp then (Failed(-EINVAL), [])
    else (Replied(temp), DrmSetTemperature(f, temp, n).calls)
  }

  /** `method_getgamma`: `get_gamma` never sets an error, so the method always
      replies, with -1 when nothing could be read. */
  function MethodGetGamma(f: Fits, n: DrmNode, readback: Option<GammaRamp>, fuel: nat): (o: Option<Reply<int>>)
    requires n.resources.Some? ==> |n.resources.value| > 0
    requires n.resources.Some? && readback.Some? ==>
      Sampleable(readback.value, n.resources.value[0].gammaSize)
    ensures o.Some? ==> o.value.Replied?
    ensures n.resources.None? || readback.None? ==> o == Some(Replied(-1))
    ensures o.None? <==> GetDrmGamma(f, n, readback, fuel).None?
    ensures o.Some? ==> o.value == Replied(GetDrmGamma(f, n, readback, fuel).value)
    ensures n.resources.Some? && readback.Some? && o.Some? ==>
      && MinTemp <= o.value.value <= MaxTemp
      && Reproduces(f, o.value.value, Clamp(readback.value.red[1], 255), Clamp(readback.value.blue[1], 255))
  {
    match GetDrmGamma(f, n, readback, fuel)
    case None => None
    case Some(t) => Some(Replied(t))
  }
}

=== FILE: drm_utils.dfy ===
/** Connector and property helpers of src/drm_utils.c (src/dpms.c carries
    identical static copies): pick a connector only when it drives a display,
    and find a connector property by name. The libdrm lookups are represented
    by their results; what the helpers hand back or free is recorded. */
module DrmUtils {
  import opened Common

  datatype Connection = Connected | Disconnected | UnknownConnection

  /** The fields of `drmModeConnector` the helpers read. */
  datatype Connector = Connector(id: int, connection: Connection, countModes: int, encoderId: int)

  /** A connector that is plugged in, has modes, and has an encoder. */
  predicate IsActive(c: Connector) {
    c.connection == Connected && c.countModes > 0 && c.encoderId != 0
  }

  /** What `get_active_connector` did with the connector it looked up. */
  datatype ConnectorPick = ConnectorPick(active: Option<Connector>, freed: bool)

  /** `get_active_connector`, given what `drmModeGetConnector` returned
      (`None` for NULL). */
  function GetActiveConnector(lookup: Option<Connector>): (p: ConnectorPick)
    ensures p.active.Some? <==> lookup.Some? && IsActive(lookup.value)
    ensures p.active.Some? ==> p.active == lookup
    ensures p.freed <==> lookup.Some? && !IsActive(lookup.value)
  {
    match lookup
    case None => ConnectorPick(None, false)
    case Some(c) => if IsActive(c) then ConnectorPick(Some(c), false) else ConnectorPick(None, true)
  }

  /** A connector that was looked up is either handed to the caller or freed,
      never both and never neither. */
  lemma ConnectorReturnedOrFreed(lookup: Option<Connector>)
    requires lookup.Some?
    ensures GetActiveConnector(lookup).active.Some? != GetActiveConnector(lookup).freed
  {
  }

  /** `drmModePropertyRes`: the property id and its name. */
  datatype Property = Property(id: int, name: string)

  predicate Named(o: Option<Property>, name: string) {
    o.Some? && o.value.name == name
  }

  /** The properties that were fetched (non-NULL) among `fetched`, in order. */
  function Fetched(fetched: seq<Option<Property>>): (ps: seq<Property>)
    ensures |ps| <= |fetched|
  {
    if |fetched| == 0 then []
    else AsSeq(fetched[0]) + Fetched(fetched[1..])
  }

  function AsSeq(o: Option<Property>): seq<Property> {
    match o
    case None => []
    case Some(p) => [p]
  }

  /** What `drm_get_prop` did: the property it returned, and the ones it
      freed, in order. */
  datatype PropSearch = PropSearch(found: Option<Property>, freed: seq<Property>)

  /** `drm_get_prop(fd, connector, name)`. `fetched[i]` is what
      `drmModeGetProperty` returned for the connector's i-th property id
      (`None` for NULL, which the loop skips). */
  function DrmGetProp(fetched: seq<Option<Property>>, name: string): (r: PropSearch)
    ensures r.found.Some? ==> r.found.value.name == name
    decreases |fetched|
  {
    if |fetched| == 0 then PropSearch(None, [])
    else
      match fetched[0]
      case None => DrmGetProp(fetched[1..], name)
      case Some(p) =>
        if p.name == name then PropSearch(Some(p), [])
        else
          var r := DrmGetProp(fetched[1..], name);
          PropSearch(r.found, [p] + r.freed)
  }

  /** The scan returns the first property called `name`, skipping NULL
      lookups, having freed every property fetched before it; with no such
      property it returns NULL having freed every property it fetched. */
  lemma {:induction false} DrmGetPropFirstMatch(fetched: seq<Option<Property>>, name: string)
    ensures var r := DrmGetProp(fetched, name);
      && (r.found.None? ==>
            (forall i :: 0 <= i < |fetched| ==> !Named(fetched[i], name)) && r.freed == Fetched(fetched))
      && (r.found.Some? ==> exists k :: 0 <= k < |fetched| && FirstNamed(fetched, name, k) && fetched[k] == r.found
                                          && r.freed == Fetched(fetched[..k]))
      && (r.found.Some? ==> r.found.value !in r.freed)
    decreases |fetched|
  {
    var r := DrmGetProp(fetched, name);
    if |fetched| > 0 {
      var rest := DrmGetProp(fetched[1..], name);
      DrmGetPropFirstMatch(fetched[1..], name);
      match fetched[0]
      case None =>
        ShiftFirstNamed(fetched, name, rest);
      case Some(p) =>
        if p.name == name {
          assert FirstNamed(fetched, name, 0) && fetched[..0] == [];
        } else {
          ShiftFirstNamed(fetched, name, rest);
          FreedNamesDiffer(fetched[1..], name);
        }
    }
  }

  /** The properties the scan frees all have another name. */
  lemma {:induction false} FreedNamesDiffer(fetched: seq<Option<Property>>, name: string)
    ensures forall p :: p in DrmGetProp(fetched, name).freed ==> p.name != name
    decreases |fetched|
  {
    if |fetched| > 0 {
      FreedNamesDiffer(fetched[1..], name);
    }
  }

  /** Index `k` holds the first property called `name`. */
  ghost predicate FirstNamed(fetched: seq<Option<Property>>, name: string, k: nat) {
    k < |fetched| && Named(fetched[k], name) && forall j :: 0 <= j < k ==> !Named(fetched[j], name)
  }

  lemma {:induction false} ShiftFirstNamed(fetched: seq<Option<Property>>, name: string, r: PropSearch)
    requires |fetched| > 0 && !Named(fetched[0], name)
    requires r.found.None? ==>
      (forall i :: 0 <= i < |fetched| - 1 ==> !Named(fetched[1..][i], name)) && r.freed == Fetched(fetched[1..])
    requires r.found.Some? ==> exists k :: 0 <= k < |fetched| - 1 && FirstNamed(fetched[1..], name, k)
                                           && fetched[1..][k] == r.found && r.freed == Fetched(fetched[1..][..k])
    ensures r.found.None? ==> forall i :: 0 <= i < |fetched| ==> !Named(fetched[i], name)
    ensures r.found.Some? ==> exists k :: 0 <= k < |fetched| && FirstNamed(fetched, name, k) && fetched[k] == r.found
                                          && Fetched(fetched[..k]) == Fetched(fetched[..1]) + r.freed
  {
    if r.found.None? {
      forall i | 0 <= i < |fetched| ensures !Named(fetched[i], name) {
        if i > 0 { assert fetched[i] == fetched[1..][i - 1]; }
      }
    } else {
      var k :| 0 <= k < |fetched| - 1 && FirstNamed(fetched[1..], name, k)
               && fetched[1..][k] == r.found && r.freed == Fetched(fetched[1..][..k]);
      assert FirstNamed(fetched, name, k + 1) by {
        forall j | 0 <= j < k + 1 ensures !Named(fetched[j], name) {
          if j > 0 { assert fetched[j] == fetched[1..][j - 1]; }
        }
      }
      assert fetched[..k + 1][1..] == fetched[1..][..k];
      assert fetched[..k + 1][..1] == fetched[..1];
    }
  }

  lemma {:induction false} FetchedAppend(fetched: seq<Option<Property>>, o: Option<Property>)
    ensures Fetched(fetched + [o]) == Fetched(fetched) + AsSeq(o)
    decreases |fetched|
  {
    if |fetched| == 0 {
      assert [o][1..] == [];
      assert Fetched([o]) == AsSeq(o) + Fetched([]);
    } else {
      assert (fetched + [o])[0] == fetched[0];
      assert (fetched + [o])[1..] == fetched[1..] + [o];
      FetchedAppend(fetched[1..], o);
      assert Fetched(fetched + [o]) == AsSeq(fetched[0]) + Fetched(fetched[1..] + [o]);
    }
  }

  /** Every property the scan fetched is either freed or handed back, and the
      one handed back is the last one fetched: with no match all of them are
      freed, with a match at `k` the freed ones followed by the match are
      exactly the properties fetched up to `k`. */
  lemma {:induction false} PropReturnedOrFreed(fetched: seq<Option<Property>>, name: string)
    ensures var r := DrmGetProp(fetched, name);
            && (r.found.None? ==> r.freed == Fetched(fetched))
            && (r.found.Some? ==> exists k :: 0 <= k < |fetched| && FirstNamed(fetched, name, k)
                                            && r.freed + [r.found.value] == Fetched(fetched[..k + 1]))
  {
    var r := DrmGetProp(fetched, name);
    DrmGetPropFirstMatch(fetched, name);
    if r.found.Some? {
      var k :| 0 <= k < |fetched| && FirstNamed(fetched, name, k) && fetched[k] == r.found
               && r.freed == Fetched(fetched[..k]);
      assert fetched[..k + 1] == fetched[..k] + [fetched[k]];
      FetchedAppend(fetched[..k], fetched[k]);
    }
  }
}

=== FILE: ramp.dfy ===
/** The gamma ramp builder shared by both backends: entry `j` of a channel of
    `size` entries is `65535 * j / size` scaled by the channel gain `c / 255`,
    truncated to 16 bits. Since 65535 = 257 * 255 the exact value is
    `257 * j * c / size`, which this module uses. */
module Ramp {
  import opened Common
  import opened ColorModel
  import opened Arith

  /** One lookup table per channel, all of the CRTC's reported size. */
  datatype GammaRamp = GammaRamp(red: seq<u16>, green: seq<u16>, blue: seq<u16>)

  /** A linear ramp as the hardware expects it: starts at zero, never
      decreases, and fits in 16 bits. */
  ghost predicate MonotoneChannel(s: seq<int>) {
    && (|s| > 0 ==> s[0] == 0)
    && (forall j :: 0 <= j < |s| ==> 0 <= s[j] <= 65535)
    && (forall i, j :: 0 <= i <= j < |s| ==> s[i] <= s[j])
  }

  ghost predicate WellFormedRamp(r: GammaRamp, size: nat) {
    && |r.red| == size && |r.green| == size && |r.blue| == size
    && MonotoneChannel(r.red) && MonotoneChannel(r.green) && MonotoneChannel(r.blue)
  }

  /** Entry `j` of a channel with gain `c / 255`. */
  function RampEntry(c: Channel, j: nat, size: nat): nat
    requires j < size
  {
    (257 * j * c) / size
  }

  lemma RampEntryBound(c: Channel, j: nat, size: nat)
    requires j < size
    ensures RampEntry(c, j, size) <= 65535
  {
    assert 257 * j * c <= 257 * j * 255;
    assert 257 * j * 255 < 65535 * size;
    DivBelow(257 * j * c, size, 65535);
  }

  lemma RampEntryMonotone(c: Channel, i: nat, j: nat, size: nat)
    requires i <= j < size
    ensures RampEntry(c, i, size) <= RampEntry(c, j, size)
  {
    assert 257 * i * c <= 257 * j * c by {
      assert 257 * c * i <= 257 * c * j;
    }
    DivMonotone(257 * i * c, 257 * j * c, size);
  }

  /** The channel table for gain `c / 255`. */
  function BuildChannel(c: Channel, size: nat): (s: seq<u16>)
    ensures |s| == size
    ensures MonotoneChannel(s)
    ensures forall j :: 0 <= j < size ==> s[j] == RampEntry(c, j, size)
  {
    forall j | 0 <= j < size ensures RampEntry(c, j, size) <= 65535 {
      RampEntryBound(c, j, size);
    }
    forall i, j | 0 <= i <= j < size ensures RampEntry(c, i, size) <= RampEntry(c, j, size) {
      RampEntryMonotone(c, i, j, size);
    }
    seq(size, j requires 0 <= j < size => RampEntry(c, j, size) as u16)
  }

  /** The ramp for `temp` at one CRTC's size: the three channels share the
      gains `Red`, `Green`, `Blue` of the temperature. */
  function BuildRamp(f: Fits, temp: int, size: nat): (r: GammaRamp)
    ensures WellFormedRamp(r, size)
    ensures r.red == BuildChannel(Red(f, temp), size)
    ensures r.green == BuildChannel(Green(f, temp), size)
    ensures r.blue == BuildChannel(Blue(f, temp), size)
  {
    GammaRamp(BuildChannel(Red(f, temp), size), BuildChannel(Green(f, temp), size),
              BuildChannel(Blue(f, temp), size))
  }

  lemma RealDivFloor(n: nat, d: nat)
    requires d > 0
    ensures (n as real / d as real).Floor == n / d
  {
    var q := n / d;
    var r := n % d;
    assert n == q * d + r;
    assert n as real == q as real * d as real + r as real;
    assert n as real / d as real == q as real + r as real / d as real;
    assert 0.0 <= r as real / d as real < 1.0;
  }

  /** The integer entry is the floor of the source's expression evaluated in
      exact arithmetic: `(65535 * j / size) * (c / 255)`. */
  lemma RampEntryIsScaledLevel(c: Channel, j: nat, size: nat)
    requires j < size
    ensures RampEntry(c, j, size) == ((65535.0 * j as real / size as real) * (c as real / 255.0)).Floor
  {
    var x := (65535.0 * j as real / size as real) * (c as real / 255.0);
    assert x == (257 * j * c) as real / size as real;
    RealDivFloor(257 * j * c, size);
  }

  /** The read-back scale of src/modules/gamma.c: `65535 * (size - 1) / size`
      divided by 255, truncated. */
  function ReadScale(size: nat): (g: nat)
    requires size >= 2
    ensures g >= 128
  {
    (257 * (size - 1)) / size
  }

  /** Dividing the last entry of a channel by `ReadScale` recovers the 8-bit
      channel value exactly, for every size of at least two. */
  lemma LastEntryReadBack(c: Channel, size: nat)
    requires size >= 2
    ensures RampEntry(c, size - 1, size) / ReadScale(size) == c
  {
    var n := 257 * (size - 1);
    var g := ReadScale(size);
    var m := n % size;
    assert n == g * size + m;
    assert m <= size - 1;
    ScaledQuotient(n, size, g, m, c);
  }

  /** With `n = g * d + m` and `m < d`, `(n * c / d) / g == c` provided
      `m * c < g * d`, which holds here since `g * d >= 256 * (d - 1)`. */
  lemma ScaledQuotient(n: nat, d: nat, g: nat, m: nat, c: Channel)
    requires d >= 2 && n == 257 * (d - 1) && n == g * d + m && m <= d - 1
    ensures g > 0 && ((n * c) / d) / g == c
  {
    assert g * d >= 256 * (d - 1);
    assert g > 0;
    var e := (n * c) / d;
    NearProduct(n, d, g, m, c);
    DivRange(e, g, c);
  }

  lemma NearProduct(n: nat, d: nat, g: nat, m: nat, c: Channel)
    requires d >= 2 && n == g * d + m && m <= d - 1 && g * d >= 256 * (d - 1)
    ensures g * c <= (n * c) / d < g * (c + 1)
  {
    assert n * c == (g * c) * d + m * c;
    MulBelow(m, d - 1, c);
    assert m * c <= (d - 1) * 255;
    assert m * c < d * 255;
    assert m * c < g * d;
    SplitQuotient(g * c, d, m * c, g);
  }

  /** With the usual 256-entry tables, entry 1 of a channel is the 8-bit
      channel value itself. */
  lemma SecondEntryReadBack(c: Channel)
    ensures RampEntry(c, 1, 256) == c
  {
    assert 257 * 1 * c == 256 * c + c;
  }
}

=== FILE: transition.dfy ===
/** The smooth-transition engine of src/modules/gamma.c: the `smooth_change`
    record, the tick run on every timer expiry (`receive`), and the bus
    methods `Set` and `Get`.

    The engine's effect on the process is made explicit: the X connections it
    holds open, whether XAUTHORITY is in the environment, the timer, and the
    list of temperatures handed to `set_gamma`. What the X server answers
    (`XOpenDisplay`, `get_gamma`, `timerfd_settime`) arrives as parameters. */
module Transition {
  import opened Common
  import opened ColorModel
  import opened Arith

  /** The timerfd: a zero `itimerspec` disarms it, otherwise it fires once
      after `waitMs` milliseconds. */
  datatype Timer = Disarmed | Armed(waitMs: nat)

  /** `smooth_change`: all counters are `unsigned int`; `dpy` is the X
      connection the transition draws on. */
  datatype SmoothChange = SmoothChange(
    target: u32, isSmooth: bool, step: u32, wait: u32, current: u32, dpy: Option<nat>)

  /** The module's state together with what it holds in the process. */
  datatype Engine = Engine(
    sc: SmoothChange,
    openDisplays: set<nat>,  // X connections opened and not yet closed
    cookieSet: bool,         // XAUTHORITY is in the environment
    timer: Timer,
    applied: seq<u32>)       // temperatures passed to set_gamma, oldest first

  /** The step as src/modules/gamma.c:83-91 computes it, in 32-bit unsigned
      arithmetic: `current - step` and `current + step` wrap around. */
  function StepAsWritten(target: u32, current: u32, step: u32): u32 {
    var down := ToU32(current - step);
    var up := ToU32(current + step);
    if target < current then (if down < target then target else down)
    else (if up > target then target else up)
  }

  /** The step the code evidently means: move `step` Kelvin toward `target`
      and stop on it rather than go past it. */
  function StepToward(target: u32, current: u32, step: u32): (next: u32)
    ensures target < current ==> target <= next <= current && current - next <= step
    ensures target >= current ==> current <= next <= target && next - current <= step
    ensures next == target || Distance(next, target) == Distance(current, target) - step
    ensures Distance(current, target) <= step ==> next == target
  {
    if target < current then (if current - step < target then target else current - step)
    else (if current + step > target then target else current + step)
  }

  function Distance(a: int, b: int): nat {
    if a <= b then b - a else a - b
  }

  /** When neither `current - step` nor `current + step` leaves the 32-bit
      range, the code's step is the intended one. */
  lemma StepAsWrittenAgrees(target: u32, current: u32, step: u32)
    requires target < current ==> step <= current
    requires target >= current ==> current + step < U32Modulus
    ensures StepAsWritten(target, current, step) == StepToward(target, current, step)
  {
  }

  /** Two inputs on which the code's step misbehaves: from 3000 K toward
      1000 K by 5000 the subtraction wraps to 2^32 - 2000 instead of stopping
      at 1000; from 4000 K toward 6500 K by 2^32 - 1000 the addition wraps and
      the temperature moves away from the target, to 3000. */
  lemma StepWrapsAround()
    ensures StepAsWritten(1000, 3000, 5000) == U32Modulus - 2000
    ensures StepToward(1000, 3000, 5000) == 1000
    ensures StepAsWritten(6500, 4000, U32Modulus - 1000) == 3000
    ensures StepToward(6500, 4000, U32Modulus - 1000) == 6500
  {
  }

  function ClosedBy(dpy: Option<nat>): set<nat> {
    match dpy
    case None => {}
    case Some(d) => {d}
  }

  /** One expiry: step `current` (or jump to the target when not smooth),
      apply it, then either finish (close the display, drop XAUTHORITY, disarm
      the timer) or re-arm the timer for `wait` ms. A zero `wait` gives a zero
      `itimerspec`, which disarms the timer as well. */
  function Tick(e: Engine): (n: Engine)
    ensures n.sc == e.sc.(current := n.sc.current)
    ensures !e.sc.isSmooth ==> n.sc.current == e.sc.target
    ensures e.sc.isSmooth ==> n.sc.current == StepToward(e.sc.target, e.sc.current, e.sc.step)
    ensures n.applied == e.applied + [n.sc.current]
    ensures n.sc.current == e.sc.target ==>
      n.timer == Disarmed && !n.cookieSet && n.openDisplays == e.openDisplays - ClosedBy(e.sc.dpy)
    ensures n.sc.current != e.sc.target ==>
      && n.timer == (if e.sc.wait == 0 then Disarmed else Armed(e.sc.wait))
      && n.cookieSet == e.cookieSet && n.openDisplays == e.openDisplays
  {
    var cur := if e.sc.isSmooth then StepToward(e.sc.target, e.sc.current, e.sc.step) else e.sc.target;
    var sc := e.sc.(current := cur);
    if cur == e.sc.target then
      Engine(sc, e.openDisplays - ClosedBy(e.sc.dpy), false, Disarmed, e.applied + [cur])
    else
      Engine(sc, e.openDisplays, e.cookieSet, if e.sc.wait == 0 then Disarmed else Armed(e.sc.wait),
             e.applied + [cur])
  }

  /** Tick steps with the corrected `StepToward`. As long as neither
      `current - step` nor `current + step` leaves the 32-bit range, that is
      the step src/modules/gamma.c takes. */
  lemma TickAgreesWithSource(e: Engine)
    requires e.sc.isSmooth
    requires e.sc.target < e.sc.current ==> e.sc.step <= e.sc.current
    requires e.sc.target >= e.sc.current ==> e.sc.current + e.sc.step < U32Modulus
    ensures Tick(e).sc.current == StepAsWritten(e.sc.target, e.sc.current, e.sc.step)
  {
    StepAsWrittenAgrees(e.sc.target, e.sc.current, e.sc.step);
  }

  /** `receive`: a pub/sub message is ignored; a NULL message (the call from
      `Set`) or the timer fd becoming readable runs a tick. */
  function Receive(e: Engine, isPubsub: bool): (n: Engine)
    ensures isPubsub ==> n == e
    ensures !isPubsub ==> n == Tick(e)
  {
    if isPubsub then e else Tick(e)
  }

  /** `k` consecutive ticks. */
  function Ticks(e: Engine, k: nat): Engine
    decreases k
  {
    if k == 0 then e else Ticks(Tick(e), k - 1)
  }

  /** With a positive step, a smooth transition is on its target after exactly
      ceil(|target - current| / step) ticks, and not before. */
  lemma {:induction false} TicksToTarget(e: Engine, k: nat)
    requires e.sc.isSmooth && e.sc.step > 0
    ensures Ticks(e, k).sc.current == e.sc.target <==>
            k >= CeilDiv(Distance(e.sc.current, e.sc.target), e.sc.step)
    ensures Ticks(e, k).sc == e.sc.(current := Ticks(e, k).sc.current)
    decreases k
  {
    var d := Distance(e.sc.current, e.sc.target);
    var s := e.sc.step as nat;
    if k == 0 {
      if d == 0 { CeilDivZero(s); } else { assert CeilDiv(d, s) >= 1 by { CeilDivPositive(d, s); } }
    } else {
      var t := Tick(e);
      TicksToTarget(t, k - 1);
      var d' := Distance(t.sc.current, t.sc.target);
      if d == 0 {
        CeilDivZero(s);
        assert d' == 0;
      } else if d <= s {
        CeilDivOne(d, s);
        assert d' == 0;
        CeilDivZero(s);
      } else {
        CeilDivStep(d, s);
        assert d' == d - s;
      }
    }
  }

  /** What a `Set` call did: the new engine state and the reply. */
  datatype SetOutcome = SetOutcome(engine: Engine, reply: Reply<bool>)

  /** `method_setgamma` (authorisation and message decoding left out).
      `conn` is what `XOpenDisplay` returned (a fresh connection or NULL),
      `reading` what `get_gamma` returned for it, `timerOk` whether
      `timerfd_settime` in the first tick succeeded. */
  function MethodSetGamma(e: Engine, temp: int, isSmooth: bool, step: u32, wait: u32,
                          conn: Option<nat>, reading: int, timerOk: bool): (o: SetOutcome)
    requires conn.Some? ==> conn.value !in e.openDisplays
    ensures (temp < MinTemp || temp > MaxTemp) ==> o == SetOutcome(e, Failed(-EINVAL))
    ensures MinTemp <= temp <= MaxTemp && conn.None? ==>
      o.engine == e.(cookieSet := false) && o.reply == Failed(-ENXIO)
    ensures MinTemp <= temp <= MaxTemp && conn.Some? ==>
      && o.engine.sc.target == temp && o.engine.sc.isSmooth == isSmooth
      && o.engine.sc.step == step && o.engine.sc.wait == wait && o.engine.sc.dpy == conn
      && o.engine.applied == e.applied + [o.engine.sc.current]
      && o.reply == (if timerOk then Replied(true) else Failed(1))
    ensures MinTemp <= temp <= MaxTemp && conn.Some? && !isSmooth ==>
      && o.engine.sc.current == temp && o.engine.timer == Disarmed && !o.engine.cookieSet
      && o.engine.openDisplays == e.openDisplays
    ensures MinTemp <= temp <= MaxTemp && conn.Some? ==>
      o.engine == Tick(Engine(SmoothChange(temp, isSmooth, step, wait, ToU32(reading), conn),
                              e.openDisplays + {conn.value}, true, e.timer, e.applied))
  {
    if temp < MinTemp || temp > MaxTemp then SetOutcome(e, Failed(-EINVAL))
    else
      match conn
      case None => SetOutcome(e.(cookieSet := false), Failed(-ENXIO))
      case Some(d) =>
        var sc := SmoothChange(temp, isSmooth, step, wait, ToU32(reading), Some(d));
        var ticked := Receive(Engine(sc, e.openDisplays + {d}, true, e.timer, e.applied), false);
        SetOutcome(ticked, if timerOk then Replied(true) else Failed(1))
  }

  /** A new `Set` overwrites `sc.dpy` without closing the connection it held:
      that connection stays open, and no later tick refers to it again. */
  lemma SetLeavesPreviousDisplayOpen(e: Engine, temp: int, isSmooth: bool, step: u32, wait: u32,
                                     d: nat, reading: int, timerOk: bool, old_dpy: nat)
    requires d !in e.openDisplays && e.sc.dpy == Some(old_dpy) && old_dpy in e.openDisplays
    requires MinTemp <= temp <= MaxTemp
    ensures old_dpy in MethodSetGamma(e, temp, isSmooth, step, wait, Some(d), reading, timerOk).engine.openDisplays
    ensures MethodSetGamma(e, temp, isSmooth, step, wait, Some(d), reading, timerOk).engine.sc.dpy != Some(old_dpy)
  {
  }

  /** The worked example: from 4000 K to 4500 K in steps of 100 the `Set` call
      applies 4100 and four timer ticks apply 4200..4500; after the last one
      the timer is disarmed and the display is closed. */
  lemma SmoothExample(e: Engine, d: nat)
    requires d !in e.openDisplays
    ensures var o := MethodSetGamma(e, 4500, true, 100, 20, Some(d), 4000, true);
            && o.reply == Replied(true)
            && Ticks(o.engine, 4).applied == e.applied + [4100, 4200, 4300, 4400, 4500]
            && Ticks(o.engine, 4).timer == Disarmed
            && d !in Ticks(o.engine, 4).openDisplays
            && Ticks(o.engine, 3).timer == Armed(20)
  {
    var o := MethodSetGamma(e, 4500, true, 100, 20, Some(d), 4000, true);
    var e1 := o.engine;
    assert e1.sc.current == 4100;
    var e2 := Tick(e1);
    var e3 := Tick(e2);
    var e4 := Tick(e3);
    var e5 := Tick(e4);
    assert Ticks(e1, 3) == e4 by {
      assert Ticks(e4, 0) == e4;
      assert Ticks(e3, 1) == e4;
      assert Ticks(e2, 2) == e4;
    }
    assert Ticks(e1, 4) == e5 by {
      assert Ticks(e5, 0) == e5;
      assert Ticks(e4, 1) == e5;
      assert Ticks(e3, 2) == e5;
      assert Ticks(e2, 3) == e5;
    }
  }

  /** What a `Get` call did. */
  datatype GetOutcome = GetOutcome(engine: Engine, reply: Reply<int>)

  /** `method_getgamma`: open a connection of its own, read, close it, and
      drop XAUTHORITY whatever happened (even when a running transition had
      set it). */
  function MethodGetGamma(e: Engine, conn: Option<nat>, reading: int): (o: GetOutcome)
    ensures o.engine == e.(cookieSet := false)
    ensures conn.None? ==> o.reply == Failed(-ENXIO)
    ensures conn.Some? ==> o.reply == Replied(reading)
  {
    match conn
    case None => GetOutcome(e.(cookieSet := false), Failed(-ENXIO))
    case Some(_) => GetOutcome(e.(cookieSet := false), Replied(reading))
  }
}

=== FILE: x_gamma.dfy ===
/** The XRandR backend of src/modules/gamma.c: `set_gamma` writes one ramp per
    CRTC of the screen, `get_gamma` reads CRTC 0's ramp back and inverts it.
    The X calls (screen resources, per-CRTC gamma size, set/get gamma) are
    represented by their inputs and results. */
module XGamma {
  import opened Common
  import opened ColorModel
  import opened Ramp

  /** What `set_gamma` installs: one ramp per CRTC, in resource order, and its
      return value. */
  datatype Applied = Applied(ramps: seq<GammaRamp>, ret: int)

  /** `set_gamma(temp, dpy)` on a screen whose CRTCs report the gamma sizes
      `sizes`. */
  function SetGamma(f: Fits, temp: int, sizes: seq<nat>): (a: Applied)
    ensures a.ret == temp
    ensures |a.ramps| == |sizes|
    ensures forall i :: 0 <= i < |sizes| ==> WellFormedRamp(a.ramps[i], sizes[i])
    ensures forall i :: 0 <= i < |sizes| ==>
      && a.ramps[i].red == BuildChannel(Red(f, temp), sizes[i])
      && a.ramps[i].green == BuildChannel(Green(f, temp), sizes[i])
      && a.ramps[i].blue == BuildChannel(Blue(f, temp), sizes[i])
  {
    Applied(seq(|sizes|, i requires 0 <= i < |sizes| => BuildRamp(f, temp, sizes[i])), temp)
  }

  /** The channel value `get_gamma` recovers from the last entry of a table. */
  function LastSample(s: seq<u16>): (c: Channel)
    requires |s| >= 2
  {
    Clamp(s[|s| - 1] / ReadScale(|s|), 255)
  }

  /** What `get_gamma` needs of the table it reads: at least two entries (one
      entry makes the read-back scale zero), red and blue of equal size, and a
      non-zero red sample (the search divides by it). */
  predicate Readable(r: GammaRamp) {
    |r.red| >= 2 && |r.blue| == |r.red| && LastSample(r.red) > 0
  }

  /** `get_gamma(dpy)`: `first` is CRTC 0's ramp, or `None` when the screen has
      no CRTC. */
  function GetGamma(f: Fits, first: Option<GammaRamp>): (t: int)
    requires first.Some? ==> Readable(first.value)
    ensures t == -1 <==> first.None?
    ensures first.Some? ==> MinTemp <= t <= MaxTemp
  {
    match first
    case None => -1
    case Some(r) => GetTemp(f, LastSample(r.red), LastSample(r.blue))
  }

  /** Reading back what `set_gamma` installed on CRTC 0 recovers exactly the
      8-bit red and blue of the temperature, so `get_gamma` answers what
      `get_temp` answers for that pair. */
  lemma GetGammaReadsSetGamma(f: Fits, temp: int, sizes: seq<nat>)
    requires |sizes| > 0 && sizes[0] >= 2
    ensures Readable(SetGamma(f, temp, sizes).ramps[0])
    ensures GetGamma(f, Some(SetGamma(f, temp, sizes).ramps[0])) == GetTemp(f, Red(f, temp), Blue(f, temp))
  {
    var r := SetGamma(f, temp, sizes).ramps[0];
    var n := sizes[0];
    LastEntryReadBack(Red(f, temp), n);
    LastEntryReadBack(Blue(f, temp), n);
    assert r.red[n - 1] == RampEntry(Red(f, temp), n - 1, n);
    assert r.blue[n - 1] == RampEntry(Blue(f, temp), n - 1, n);
    assert LastSample(r.red) == Red(f, temp);
    assert LastSample(r.blue) == Blue(f, temp);
  }

  /** Setting 6500 K and reading it back gives 6500 K, whatever the fits. */
  lemma NeutralRoundTrip(f: Fits, sizes: seq<nat>)
    requires |sizes| > 0 && sizes[0] >= 2
    ensures Readable(SetGamma(f, Neutral, sizes).ramps[0])
    ensures GetGamma(f, Some(SetGamma(f, Neutral, sizes).ramps[0])) == Neutral
  {
    GetGammaReadsSetGamma(f, Neutral, sizes);
  }
}
